=== FILE: README.md ===
# rugsbot in Dafny

A model of the core of rugsbot, a trading bot for the RUGS.FUN crash game. The bot talks to the game
server over a websocket in Socket.IO framing. It watches `gameStateUpdate` events. It sends a
`placeBet` request while a round is young and cheap, and a `sellBet` request once the price reaches
the profit target. It books the profit the server confirms with `betPlaced`, `betSold` and `betLost`,
and it stops at a session profit target. Beside the bot sit a risk gate (`SafetyManager`) and the
configuration checks run before start-up.

Modules, one per source file plus two shared ones:

- `Wrappers` (wrappers.dfy): `Option`.
- `Json` (json.dfy): Python's `json.dumps` with its default settings, and `json.loads`. It includes the
  round trip `json.loads(json.dumps(v)) == v` and dict semantics: a lookup sees the last occurrence of
  a key, and iteration yields the distinct keys in first-insertion order.
- `SocketIO` (socketio.dfy): `parse_socketio_message` and the frame `send_socketio_message` writes
  (rugsbot/rugsbot/utils.py).
- `Trading` (trading.dfy): the bot's globals, `handle_game_state_update` and the receive loop of
  `connect_and_listen` (rugsbot/rugsbot/bot.py). Each branch is a function on a `BotState` value.
  The class `Bot` holds the same state in fields, and its methods are proved against those
  functions. `Listen` is the `while True` loop over a sequence of received inputs.
- `Safety` (safety.dfy): `Trade` and the `SafetyManager` class (rugsbot/rugsbot/safety.py).
- `Validators` (validators.dfy): `validate_config`, `validate_event_names` and `get_config_summary`
  (rugsbot/rugsbot/validators.py), over the settings record of config.py.

Python semantics the model spells out:

- truthiness (`if x:`), with a bool treated as an int;
- `dict.get` on a value that is not a dict raises;
- `:.8f` raises on a value that is not a number;
- two-target unpacking (`a, b = v`) iterates a list, the keys of a dict or the characters of a string.

The receive loop decodes each frame with `parse_socketio_message` as written (`DecodeAsWritten`), not
with the corrected decoder `Decode` (see "## Findings"). A frame that makes the parser raise changes
nothing, and whatever pair the parser returns is dispatched on its event name.

Inside the receive loop, `except Exception` swallows a raise. A handler in the model therefore keeps
every update made before the point where Python raises, and makes none after it.

## Model

| member | source | states |
|---|---|---|
| Json.RoundTrip | rugsbot/rugsbot/utils.py:17 | Parsing the text `json.dumps` writes gives back the value, for every value whose numbers are valid lexemes |
| Json.Lookup | rugsbot/rugsbot/bot.py:36-38 | `payload.get(key)` finds a key exactly when some member has it, and returns the value of the last member with that key |
| Json.Keys | rugsbot/rugsbot/utils.py:38 | Iterating a decoded dict yields each key of the text exactly once |
| SocketIO.Decode | rugsbot/rugsbot/utils.py:24-55 | "2" and "3" give engine_ping/engine_pong with no payload; "42" followed by a two-element JSON list gives (name, payload); any other "42" frame gives (None, None); "0{" gives engine_open and the parsed object, or (None, None) if it does not parse; anything else gives (None, None) |
| SocketIO.Unpack2 | rugsbot/rugsbot/utils.py:38 | Two-target unpacking raises TypeError exactly for None, a bool or a number; it yields a pair exactly for a 2-element list, a dict with 2 keys or a 2-character string; a list gives its two items |
| SocketIO.DecodeAsWritten | rugsbot/rugsbot/utils.py:35-45 | As written, a TypeError escapes exactly when a "42" frame carries JSON that parses to None, a bool or a number |
| SocketIO.AsWrittenAgrees | rugsbot/rugsbot/utils.py:24-55 | On every frame except "42" followed by JSON that is not a list, the code as written returns what `Decode` returns |
| SocketIO.EventDecode | rugsbot/rugsbot/utils.py:35-45 | For a "42" frame whose text parses to v: `Decode` gives v's two items when v is a 2-element list; the code as written raises, returns the unpacked pair, or returns (None, None) as `Unpack2` decides |
| SocketIO.NullEventRaises | rugsbot/rugsbot/utils.py:36-45 | "42null" lets a TypeError escape as written; `Decode` gives (None, None) |
| SocketIO.StringEventUnpacks | rugsbot/rugsbot/utils.py:38-39 | As written, '42"ab"' decodes as event "a" with payload "b"; `Decode` gives (None, None) |
| SocketIO.ObjectEventUnpacks | rugsbot/rugsbot/utils.py:38-39 | As written, a "42" frame carrying a two-key object decodes as (first key, second key); `Decode` gives (None, None) |
| SocketIO.Encode | rugsbot/rugsbot/utils.py:16-17 | An event frame starts with `42[` |
| SocketIO.EncodeDecode | rugsbot/rugsbot/utils.py:16-17 | Decoding the frame sent for (name, payload) gives back (name, payload), both for `Decode` and for the code as written |
| SocketIO.OpenDecode | rugsbot/rugsbot/utils.py:46-49 | '0' followed by a JSON object decodes to engine_open with that object |
| SocketIO.DecodeRejects | rugsbot/rugsbot/utils.py:35-55 | "foobar" and "42notjson" give (None, None) |
| SocketIO.SendEvent | rugsbot/rugsbot/utils.py:9-22 | Nothing is sent on a missing or closed socket, otherwise exactly one frame; that frame decodes back to the name and payload |
| Trading.Bot.constructor | rugsbot/rugsbot/bot.py:25-30 | The connected bot starts with no session profit, no bet, entry price 0.0, no id, and the last ping at the connection time |
| Trading.InitialIdle | rugsbot/rugsbot/bot.py:25-30 | The initial state holds no bet: entry price 0 and no bet id |
| Trading.DefaultStake | rugsbot/rugsbot/config.py:11 | The shipped stake is written as the JSON number "0.01" and denotes 0.01 |
| Trading.Bot.HandleGameStateUpdate | rugsbot/rugsbot/bot.py:32-81 | The new state is `GameStateUpdate` of the old one |
| Trading.GameStateUpdateFrame | rugsbot/rugsbot/bot.py:32-81 | An update changes only the round flag, the round start time and the sent frames. It appends at most one frame, and that frame is the encoded placeBet request with the configured stake or the encoded sellBet request |
| Trading.GameStateUpdateRejects | rugsbot/rugsbot/bot.py:36-41 | A payload that is not a dict, or one whose price is not a number, changes nothing |
| Trading.RoundRule | rugsbot/rugsbot/bot.py:45-50 | The round flag follows `active`; the start time moves, and moves to `now`, exactly when an active update finds the flag clear |
| Trading.BuyRule | rugsbot/rugsbot/bot.py:53-64 | With no bet active: placeBet {amount: stake, autoSellMultiplier: None, stopLossMultiplier: None} is sent exactly when the round is active, the time since its start is within the buy window and the price is at most the ceiling; the bet stays inactive |
| Trading.SellRule | rugsbot/rugsbot/bot.py:71-81 | With a bet active: sellBet {percentage: 100} is sent exactly when the round is active, the entry price is a positive number and price / entry reaches the target |
| Trading.RepeatedPlaceBet | rugsbot/rugsbot/bot.py:53-64 | Two updates inside the buy window, with no confirmation between them, send placeBet twice |
| Trading.Bot.OnBetPlaced | rugsbot/rugsbot/bot.py:131-148 | The new state is `BetPlaced` of the old one |
| Trading.BetPlacedRule | rugsbot/rugsbot/bot.py:134-147 | betPlaced always marks the bet active and changes nothing but the bet fields. A payload that is not a dict only activates the bet. In a dict, a truthy entryPrice becomes the entry price; with no entryPrice, a truthy price does; a falsy value or neither key keeps the old entry price. The id follows `id` when present and is kept otherwise |
| Trading.Bot.OnBetSold | rugsbot/rugsbot/bot.py:150-166 | The new state and the stop flag are `BetSold` of the old state |
| Trading.BetSoldRule | rugsbot/rugsbot/bot.py:152-166 | Session profit grows by payout - stake. The bet is cleared to entry 0 and no id. The loop stops exactly when session profit reaches the target. Without a dict payload or a numeric payout nothing changes |
| Trading.Bot.OnBetLost | rugsbot/rugsbot/bot.py:168-180 | The new state and the stop flag are `BetLost` of the old state |
| Trading.BetLostRule | rugsbot/rugsbot/bot.py:171-180 | Session profit falls by the amount, which is the stake when the payload has none. The bet is cleared, with the same stop rule |
| Trading.Bot.OnMessage | rugsbot/rugsbot/bot.py:101-180 | The new state and the stop flag are `OnFrame` of the old state: the frame is decoded as written, a TypeError from the parser leaves the state as it was, and a returned pair is dispatched on its event name |
| Trading.EngineFrames | rugsbot/rugsbot/bot.py:105-113 | A ping is answered with "3" and sets the last ping time, or ends the loop on a closed link; a pong only sets the last ping time |
| Trading.UnhandledFrame | rugsbot/rugsbot/bot.py:101-180 | A frame on which the parser as written raises, or whose decoded name is none of ping, pong and the four configured events, changes nothing and does not stop the loop |
| Trading.ObjectFrameActivatesBet | rugsbot/rugsbot/bot.py:103-138 | A "42" frame carrying the object {betPlaced: v1, other: v2} is decoded as written as the event betPlaced and activates the bet, while dispatching the corrected `Decode` of the same frame changes nothing |
| Trading.Bot.OnTimeout | rugsbot/rugsbot/bot.py:189-196 | The new state and the stop flag are `OnRecvTimeout` of the old state |
| Trading.TimeoutRule | rugsbot/rugsbot/bot.py:189-196 | On a receive timeout "2" is sent and the last ping time set exactly when more than the ping interval has passed since the last ping |
| Trading.Bot.Listen | rugsbot/rugsbot/bot.py:100-206 | The loop's final state and stop flag are `Run` over the inputs, each frame decoded as written |
| Trading.DispatchStep | rugsbot/rugsbot/bot.py:103-180 | One frame appends at most one frame, and it is "2", "3", placeBet or sellBet. Between bets the entry price stays 0 and the id None. The loop stops only on a closed link, or when a settled bet reaches the session target |
| Trading.ApplyStep | rugsbot/rugsbot/bot.py:100-206 | The same for any input; the end of the connection also stops the loop |
| Trading.RunSends | rugsbot/rugsbot/bot.py:100-206 | Over any run the sent frames only grow, by at most one per input, each of them one of the four allowed frames |
| Trading.RunIdle | rugsbot/rugsbot/bot.py:100-206 | Over any run, a bot with no bet holds entry price 0 and no id |
| Trading.NoSellWithoutConfirmation | rugsbot/rugsbot/bot.py:103-148 | With no frame in the run that the parser as written decodes to the name betPlaced, the bet never becomes active and only pings, pongs and placeBet requests are sent |
| Safety.PlaceVerdict | rugsbot/rugsbot/safety.py:58-80 | Placing is allowed exactly when there is no emergency stop, no open position, daily loss below its limit and losing streak below its limit. The first failing check gives the reason. The limit denials are exactly the reasons that trip the stop |
| Safety.SellVerdict | rugsbot/rugsbot/safety.py:101-118 | Selling happens exactly when the multiplier reaches the target, or falls to the stop loss, or the position's age reaches the limit, or the emergency stop is set. The checks run in that order, and the first one that holds gives the reason. Otherwise the position is held |
| Safety.ProfitFollowsPrice | rugsbot/rugsbot/safety.py:165-170 | Without a payout, a trade with positive stake and entry price profits exactly when the exit price is above the entry price |
| Safety.EnteredSince | rugsbot/rugsbot/safety.py:240 | The count of today's trades is at most the number of trades |
| Safety.ProfitableSince | rugsbot/rugsbot/safety.py:241-242 | The profitable trades of the day are at most the day's trades |
| Safety.WinRate | rugsbot/rugsbot/safety.py:244 | The win rate lies in 0..100, is 0 with no trades, and is 100 exactly when every trade was profitable |
| Safety.SafetyManager.constructor | rugsbot/rugsbot/safety.py:26-47 | A fresh manager: zero totals and streaks, no trades, no current trade, no emergency stop, the day starting now |
| Safety.SafetyManager.TriggerEmergencyStop | rugsbot/rugsbot/safety.py:208-212 | Sets the stop and its reason; nothing else changes |
| Safety.SafetyManager.ShouldPlaceBet | rugsbot/rugsbot/safety.py:49-80 | Returns `PlaceVerdict` of the state before the call. A limit denial latches the emergency stop with that reason; otherwise the stop is untouched. No other field changes |
| Safety.SafetyManager.ShouldSellPosition | rugsbot/rugsbot/safety.py:82-118 | No active position gives (False, no position); otherwise `SellVerdict` of price / entry and of the position's age |
| Safety.SafetyManager.StartTrade | rugsbot/rugsbot/safety.py:120-148 | Appends exactly one open trade entered now, makes it the current trade, and leaves earlier trades and all totals untouched |
| Safety.SafetyManager.CloseTrade | rugsbot/rugsbot/safety.py:150-206 | With no open trade, returns None and changes nothing. Otherwise the trade is closed with profit payout - stake, or stake * (exit/entry - 1) without a payout, and there is no current trade. A win adds to the daily profit and the win streak and resets the losses. Anything else adds abs(profit) to the daily loss and the loss streak and resets the wins. The totals stay non-negative |
| Safety.SafetyManager.ResetDailyStats | rugsbot/rugsbot/safety.py:214-221 | The daily totals are zeroed and the day restarted exactly when 86400 seconds have passed; streaks, trades and the emergency stop are untouched |
| Safety.SafetyManager.GetDailyStats | rugsbot/rugsbot/safety.py:238-258 | profitable <= total <= number of trades. The win rate is in 0..100 and is 0 with no trades. Net profit is daily profit minus daily loss, and for a valid manager never above the daily profit |
| Validators.SplitUrl | rugsbot/rugsbot/validators.py:27 | The scheme is non-empty exactly when the text before the first ':' is a valid scheme, and then it is that text lower-cased. After the scheme, a "//" starts the host, which runs to the end or to the first '/', '?' or '#'; without "//" the host is empty. Of urlsplit's ValueErrors, the model has the unbalanced-bracket one: the result is None exactly when that host has unbalanced brackets |
| Validators.SplitUrlParts | rugsbot/rugsbot/validators.py:27 | For scheme + "://" + host + rest, where the host holds no '/', '?' or '#' and the rest starts with one of them or is empty, the scheme comes back lower-cased and the host whole, unless its brackets are unbalanced |
| Validators.SplitUrlExample | rugsbot/rugsbot/validators.py:27 | "WSS://h:1/x?y" splits into scheme "wss" and host "h:1" |
| Validators.SplitUrlUnbalanced | rugsbot/rugsbot/validators.py:27 | "ws://[::1/x" is a ValueError |
| Validators.SplitUrlNoHost | rugsbot/rugsbot/validators.py:27 | "host/x" has neither scheme nor host |
| Validators.UriErrors | rugsbot/rugsbot/validators.py:22-33 | "Not configured" is reported exactly for a falsy or placeholder URI. There are no URI errors exactly when the URI is a string with a ws/wss scheme and a host |
| Validators.Check | rugsbot/rugsbot/validators.py:36-53 | A numeric check can only report its own setting with its own value |
| Validators.SettingRule | rugsbot/rugsbot/validators.py:35-53 | Each of stake, profit target, session target, buy window, price ceiling and ping interval is reported exactly when it is not a number above its floor: 1.0 for the profit target, 0 for the rest |
| Validators.OptionalSettingRules | rugsbot/rugsbot/validators.py:72-79 | MAX_DAILY_LOSS is reported exactly when present and not a number above 0. MAX_CONSECUTIVE_LOSSES is reported exactly when present and not an integer above 0, where a bool counts as an integer |
| Validators.ValidateConfig | rugsbot/rugsbot/validators.py:13-94 | It raises exactly when stake, profit target or buy window is not a number; otherwise its errors are `Errors` |
| Validators.ValidateConfigVerdict | rugsbot/rugsbot/validators.py:13-94 | It returns True exactly for settings that are acceptable setting by setting |
| Validators.WarningsDoNotFail | rugsbot/rugsbot/validators.py:55-70 | Changing the user agent or origin never changes the verdict; an empty user agent gives a warning |
| Validators.ShippedVerdict | rugsbot/rugsbot/validators.py:22-24 | The shipped config.py fails with exactly one error, the unconfigured URI, and no warnings |
| Validators.CheckEvents | rugsbot/rugsbot/validators.py:159-163 | At most one warning per event. No warnings exactly when every value is a non-empty string. Each flagged event's warning is in the list, and every warning comes from an event |
| Validators.ValidateEventNames | rugsbot/rugsbot/validators.py:142-165 | At most 6 warnings, and none exactly when all six event names are non-empty strings |
| Validators.ShippedEventNames | rugsbot/rugsbot/config.py:18-23 | The shipped event names give no warnings |
| Validators.GetConfigSummary | rugsbot/rugsbot/validators.py:168-186 | "URI configured" exactly when it is neither falsy nor the placeholder; missing DRY_RUN reads False; missing loss limits read None |
| Validators.SummaryAgreesWithValidation | rugsbot/rugsbot/validators.py:175 | The summary calls the URI configured exactly when `validate_config` reports no "not configured" error |

## Left out

- Network and scheduling: `websockets.connect`, `recv`, `asyncio.wait_for` and `sleep` are left out, as are the handlers that turn a connection error into leaving the loop (rugsbot/rugsbot/bot.py:95-101, 198-219). Each received thing is an `Input`: a frame with the time and whether the link is open, a receive timeout, or the end of the connection.
- Clock: every `time.time()` read while handling one input is the single `now` of that input.
- Logging and message formatting: every `logger` call and every formatted reason string is left out. Reasons and errors are named cases. A format that raises on a non-number is kept as the raise it causes.
- Floating point: numbers are exact `real`s. A JSON number keeps its lexeme. The model does not capture float rounding, NaN or Infinity.
- Binary websocket frames: `recv` can return bytes; the model handles text frames only.
- JSON strings: Dafny characters are Unicode scalar values, so lone surrogates in JSON text are not modelled.
- Json.ParseJson: CPython's `json.loads` has two limits that the model does not have, and both depend on the Python version.
  - An integer literal longer than `sys.get_int_max_str_digits()` digits (4300 by default since 3.11 and in the 3.8.14+ backports) raises ValueError. In `parse_socketio_message` that ValueError is caught and the frame gives (None, None) (rugsbot/rugsbot/utils.py:43).
  - Nesting deep enough to exhaust the interpreter's recursion limit (about 1000 levels) raises RecursionError. That error escapes the parser and is swallowed by the receive loop (rugsbot/rugsbot/bot.py:204-206), so the state is unchanged.
  - The model parses both kinds of frame. A `42["betPlaced", …]` frame that carries such a payload therefore activates the bet in the model, while the source changes nothing.
- `validate_websocket_uri`, the cli, the installer and the frame-dump tools: network tests and user interface, outside the modelled core.
- Validators.SplitUrl: follows `urllib.parse.urlsplit` for the scheme, the host and the unbalanced-bracket ValueError. It leaves out three other things `urlsplit` does. First, it strips leading and trailing control characters and removes tabs and newlines. Second, it checks a bracketed IPv6 host. Third, for a non-ASCII host it raises ValueError when the host's NFKC normal form holds '/', '?', '#', '@' or ':', and the model has no Unicode normalisation. For example, `ws://a℀b` is reported as an invalid URI by `validate_config` but is accepted by the model.
- Validators.Settings: a setting holds None, a bool, an int, a float or a str. Other Python types are not modelled.
- Safety.Limits: config.py defines none of MAX_DAILY_LOSS, MAX_CONSECUTIVE_LOSSES, STOP_LOSS_MULTIPLIER, MAX_POSITION_TIME_SECONDS or DRY_RUN. The model takes the limits as a parameter and treats DRY_RUN as switching log lines only. Nothing in the modelled core calls `SafetyManager`. With config.py as shipped, four methods would raise AttributeError:
  - `should_place_bet` raises at the daily-loss check (rugsbot/rugsbot/safety.py:67), once the emergency-stop and open-position checks pass.
  - `should_sell_position` passes the profit-target check, which reads the defined PER_TRADE_PROFIT_MULTIPLIER_TARGET (rugsbot/rugsbot/safety.py:102). It raises at the stop-loss check (rugsbot/rugsbot/safety.py:106).
  - `start_trade` raises at its DRY_RUN read (rugsbot/rugsbot/safety.py:143), after the new trade has been made current and appended.
  - `close_trade` raises at its DRY_RUN read (rugsbot/rugsbot/safety.py:192). By then the trade is closed and the daily totals and streaks are updated, but `current_trade` is not yet cleared (rugsbot/rugsbot/safety.py:204), so the manager is left holding an inactive current trade.
- Safety.SafetyManager.ShouldSellPosition: requires a nonzero entry price; the source divides by it unguarded, and the ZeroDivisionError is not modelled.
- Safety.SafetyManager.CloseTrade: requires a nonzero entry price; the result line divides by it even when a payout is given, and the ZeroDivisionError is not modelled.
- Safety `_log_stats`: logging only; its division is guarded by the trade just closed.
- Safety `current_trade`: it is the same object as the last element of `trades`. The model holds it as the index of that element, so closing the trade updates the list entry, as the aliasing does in Python.
- Trading.Config: the stake is held as its JSON lexeme, because it is sent as JSON and also used as a number.

## Findings

| source | as written | input that shows it | evidently intended | confidence | as-written member | corrected member |
|---|---|---|---|---|---|---|
| rugsbot/rugsbot/utils.py:35-45 | Only JSONDecodeError and ValueError are caught around the unpacking, so a TypeError escapes when the data after "42" is JSON null, a bool or a number | `42null` | (None, None), like every other "42" frame that is not a two-element list, as the docstring says | not executed | SocketIO.NullEventRaises | SocketIO.Decode |
| rugsbot/rugsbot/utils.py:38 | `event_name, payload = json.loads(...)` unpacks any iterable of length two, so a two-character string or a two-key object is taken for an event | `42"ab"` gives event "a" with payload "b"; `42{"betPlaced": 1, "x": 2}` is taken for a betPlaced event and activates the bet | only a two-element JSON list is an event | not executed | SocketIO.StringEventUnpacks, Trading.ObjectFrameActivatesBet | SocketIO.EncodeDecode |

=== FILE: json.dfy ===
/**
 * JSON values as Python's `json` module writes and reads them.
 *
 * `Serialize` is `json.dumps` with its default settings: separators ", " and
 * ": ", and `ensure_ascii` escaping (every character outside ' '..'~' becomes
 * a \uXXXX escape, a surrogate pair above U+FFFF).  `ParseJson` is `json.loads`
 * as CPython's scanner implements it, restricted to the subset without NaN and
 * Infinity.  Numbers keep their lexeme; `NumValue` gives the number it denotes.
 * Python's `None` is `JNull`, a `dict` is a `JObj` whose members keep the
 * order and the duplicates of the text (lookups follow `dict`: the last
 * occurrence of a key wins).
 */
module Json {
  import opened Wrappers

  datatype Json =
    | JNull
    | JBool(b: bool)
    | JNum(lit: string)
    | JStr(s: string)
    | JArr(items: seq<Json>)
    | JObj(members: seq<Member>)

  datatype Member = Member(key: string, value: Json)

  // ---------------------------------------------------------------------------
  // Characters

  predicate IsDigit(c: char) { '0' <= c <= '9' }

  /** The whitespace `json` skips between tokens. */
  predicate IsWs(c: char) { c == ' ' || c == '\t' || c == '\n' || c == '\r' }

  function SkipWs(s: string): (r: string)
    ensures |r| <= |s| && r == s[|s| - |r|..]
    ensures r == [] || !IsWs(r[0])
  {
    if s != [] && IsWs(s[0]) then SkipWs(s[1..]) else s
  }

  // ---------------------------------------------------------------------------
  // Numbers: -?(0|[1-9][0-9]*)(\.[0-9]+)?([eE][-+]?[0-9]+)?, each optional part
  // taken only when it is complete, as the scanner does.

  function DigitsLen(s: string): (n: nat)
    ensures n <= |s|
    ensures forall i | 0 <= i < n :: IsDigit(s[i])
    ensures n < |s| ==> !IsDigit(s[n])
  {
    if s != [] && IsDigit(s[0]) then 1 + DigitsLen(s[1..]) else 0
  }

  function IntLen(t: string): (n: nat)
    ensures n <= |t|
  {
    if t == [] then 0
    else if t[0] == '0' then 1
    else if IsDigit(t[0]) then 1 + DigitsLen(t[1..])
    else 0
  }

  function FracLen(y: string): (n: nat)
    ensures n <= |y|
  {
    if |y| >= 2 && y[0] == '.' && IsDigit(y[1]) then 1 + DigitsLen(y[1..]) else 0
  }

  function ExpLen(w: string): (n: nat)
    ensures n <= |w|
  {
    if w != [] && (w[0] == 'e' || w[0] == 'E') then
      var n := SignedDigitsLen(w[1..]);
      if n > 0 then 1 + n else 0
    else 0
  }

  /** An optional sign and at least one digit; 0 when the digits are missing. */
  function SignedDigitsLen(x: string): (n: nat)
    ensures n <= |x|
  {
    var sign := if x != [] && (x[0] == '+' || x[0] == '-') then 1 else 0;
    var d := DigitsLen(x[sign..]);
    if d > 0 then sign + d else 0
  }

  /** Length of the optional fraction and exponent at the start of `y`. */
  function FracExpLen(y: string): (n: nat)
    ensures n <= |y|
  {
    var f := FracLen(y);
    f + ExpLen(y[f..])
  }

  /** Length of an unsigned number token at the start of `t`; 0 when there is none. */
  function UnsignedLen(t: string): (n: nat)
    ensures n <= |t|
  {
    var i := IntLen(t);
    if i == 0 then 0 else i + FracExpLen(t[i..])
  }

  /** Length of the number token at the start of `s`; 0 when there is none. */
  function NumberLen(s: string): (n: nat)
    ensures n <= |s|
  {
    var sign := if |s| > 0 && s[0] == '-' then 1 else 0;
    var u := UnsignedLen(s[sign..]);
    if u == 0 then 0 else sign + u
  }

  /** A lexeme the scanner reads as one number, entirely. */
  predicate ValidNumLit(lit: string) { lit != [] && NumberLen(lit) == |lit| }

  function DigitVal(c: char): nat { if IsDigit(c) then c as int - '0' as int else 0 }

  function DigitsVal(s: string): nat {
    if s == [] then 0 else DigitsVal(s[..|s| - 1]) * 10 + DigitVal(s[|s| - 1])
  }

  /** `m` times ten to the power `e`. */
  function Scaled(m: real, e: int): real
    decreases if e < 0 then -e else e
  {
    if e == 0 then m else if e > 0 then Scaled(m * 10.0, e - 1) else Scaled(m / 10.0, e + 1)
  }

  /** The number a lexeme denotes (float rounding is not modelled). */
  function NumValue(lit: string): real {
    if lit != [] && lit[0] == '-' then -Significand(lit[1..], 0, 0, false) else Significand(lit, 0, 0, false)
  }

  /**
   * The rest of an unsigned lexeme read left to right: `acc` is the integer
   * the digits read so far spell, `shift` how many of them follow the point.
   */
  function Significand(t: string, acc: nat, shift: nat, frac: bool): real
    decreases |t|
  {
    if t != [] && IsDigit(t[0]) then Significand(t[1..], acc * 10 + DigitVal(t[0]), if frac then shift + 1 else shift, frac)
    else if t != [] && t[0] == '.' && !frac then Significand(t[1..], acc, shift, true)
    else Scaled(acc as real, Exponent(t) - shift)
  }

  /** The exponent part ("e", an optional sign, digits) of a lexeme; 0 when it has none. */
  function Exponent(w: string): int {
    if |w| >= 2 && w[1] == '-' then -(DigitsVal(w[2..]) as int)
    else if |w| >= 2 && w[1] == '+' then DigitsVal(w[2..])
    else if w != [] then DigitsVal(w[1..])
    else 0
  }

  // ---------------------------------------------------------------------------
  // Python semantics of values used by the bot

  /** The `bool()` of the Python value. */
  predicate Truthy(v: Json) {
    match v
    case JNull => false
    case JBool(b) => b
    case JNum(lit) => NumValue(lit) != 0.0
    case JStr(s) => s != []
    case JArr(items) => items != []
    case JObj(ms) => ms != []
  }

  /** The value as a number, when Python arithmetic accepts it (a bool is an int). */
  function NumericValue(v: Json): (r: Option<real>)
    ensures r.Some? <==> v.JNum? || v.JBool?
  {
    match v
    case JNum(lit) => Some(NumValue(lit))
    case JBool(b) => Some(if b then 1.0 else 0.0)
    case _ => None
  }

  /** `d[key]` of the dict the members build: the last occurrence wins. */
  function Lookup(ms: seq<Member>, key: string): (r: Option<Json>)
    ensures r.None? <==> forall i | 0 <= i < |ms| :: ms[i].key != key
    ensures r.Some? ==> exists i | 0 <= i < |ms| :: ms[i].key == key && ms[i].value == r.value
                          && forall j | i < j < |ms| :: ms[j].key != key
  {
    if ms == [] then None
    else if ms[|ms| - 1].key == key then Some(ms[|ms| - 1].value)
    else Lookup(ms[..|ms| - 1], key)
  }

  /** The keys of the dict the members build, in first-insertion order. */
  function Keys(ms: seq<Member>): (ks: seq<string>)
    ensures forall k :: k in ks <==> exists i | 0 <= i < |ms| :: ms[i].key == k
    ensures forall i, j | 0 <= i < j < |ks| :: ks[i] != ks[j]
  {
    if ms == [] then []
    else
      var ks := Keys(ms[..|ms| - 1]);
      if ms[|ms| - 1].key in ks then ks else ks + [ms[|ms| - 1].key]
  }

  // ---------------------------------------------------------------------------
  // Serializer (json.dumps)

  function HexDigit(d: nat): (c: char)
    requires d < 16
  {
    if d < 10 then ('0' as int + d) as char else ('a' as int + d - 10) as char
  }

  /** Four lower-case hex digits, as `'\\u{0:04x}'` writes them. */
  function Hex4(n: nat): (r: string)
    requires n < 0x1_0000
    ensures |r| == 4
  {
    [HexDigit(n / 16 / 16 / 16), HexDigit(n / 16 / 16 % 16), HexDigit(n / 16 % 16), HexDigit(n % 16)]
  }

  function EscapeChar(c: char): (r: string)
    ensures r != [] && r[0] != '"'
  {
    if c == '"' then "\\\""
    else if c == '\\' then "\\\\"
    else if c == '\n' then "\\n"
    else if c == '\r' then "\\r"
    else if c == '\t' then "\\t"
    else if c as int == 0x08 then "\\b"
    else if c as int == 0x0C then "\\f"
    else if ' ' <= c <= '~' then [c]
    else if c as int < 0x1_0000 then "\\u" + Hex4(c as int)
    else
      var v := c as int - 0x1_0000;
      "\\u" + Hex4(0xD800 + v / 0x400) + "\\u" + Hex4(0xDC00 + v % 0x400)
  }

  function Escape(s: string): string {
    if s == [] then "" else EscapeChar(s[0]) + Escape(s[1..])
  }

  function Quote(s: string): string { "\"" + Escape(s) + "\"" }

  function Serialize(v: Json): string {
    match v
    case JNull => "null"
    case JBool(b) => if b then "true" else "false"
    case JNum(lit) => lit
    case JStr(s) => Quote(s)
    case JArr(items) => "[" + SerializeItems(items) + "]"
    case JObj(ms) => "{" + SerializeMembers(ms) + "}"
  }

  function SerializeItems(items: seq<Json>): string {
    if items == [] then ""
    else if |items| == 1 then Serialize(items[0])
    else Serialize(items[0]) + ", " + SerializeItems(items[1..])
  }

  function SerializeMember(m: Member): string {
    Quote(m.key) + ": " + Serialize(m.value)
  }

  function SerializeMembers(ms: seq<Member>): string {
    if ms == [] then ""
    else if |ms| == 1 then SerializeMember(ms[0])
    else SerializeMember(ms[0]) + ", " + SerializeMembers(ms[1..])
  }

  /** Every number in the value is a lexeme the scanner reads back. */
  predicate WellFormed(v: Json) {
    match v
    case JNum(lit) => ValidNumLit(lit)
    case JArr(items) => forall i | 0 <= i < |items| :: WellFormed(items[i])
    case JObj(ms) => forall i | 0 <= i < |ms| :: WellFormed(ms[i].value)
    case _ => true
  }

  // ---------------------------------------------------------------------------
  // Parser (json.loads)

  predicate IsHex(c: char) { '0' <= c <= '9' || 'a' <= c <= 'f' || 'A' <= c <= 'F' }

  function HexVal(c: char): (d: nat)
    requires IsHex(c)
    ensures d < 16
  {
    if '0' <= c <= '9' then c as int - '0' as int
    else if 'a' <= c <= 'f' then c as int - 'a' as int + 10
    else c as int - 'A' as int + 10
  }

  function ParseHex4(s: string): (r: Option<nat>)
    ensures r.Some? ==> r.value < 0x1_0000
  {
    if |s| >= 4 && IsHex(s[0]) && IsHex(s[1]) && IsHex(s[2]) && IsHex(s[3]) then
      Some(((HexVal(s[0]) * 16 + HexVal(s[1])) * 16 + HexVal(s[2])) * 16 + HexVal(s[3]))
    else None
  }

  /** The character an escape denotes; `s` follows the backslash. */
  function ParseEscape(s: string): (r: Option<(char, string)>)
    ensures r.Some? ==> |r.value.1| < |s|
  {
    if s == [] then None
    else if s[0] == '"' || s[0] == '\\' || s[0] == '/' then Some((s[0], s[1..]))
    else if s[0] == 'b' then Some((0x08 as char, s[1..]))
    else if s[0] == 'f' then Some((0x0C as char, s[1..]))
    else if s[0] == 'n' then Some(('\n', s[1..]))
    else if s[0] == 'r' then Some(('\r', s[1..]))
    else if s[0] == 't' then Some(('\t', s[1..]))
    else if s[0] == 'u' then ParseUnicodeEscape(s[1..])
    else None
  }

  /** A `\uXXXX` escape, or a surrogate pair of them; `s` follows the 'u'. */
  function ParseUnicodeEscape(s: string): (r: Option<(char, string)>)
    ensures r.Some? ==> |r.value.1| < |s|
  {
    match ParseHex4(s)
    case None => None
    case Some(hi) =>
      var t := s[4..];
      if 0xD800 <= hi <= 0xDBFF && |t| >= 2 && t[0] == '\\' && t[1] == 'u' then
        match ParseHex4(t[2..])
        case None => None
        case Some(lo) =>
          if 0xDC00 <= lo <= 0xDFFF then
            Some(((0x1_0000 + (hi - 0xD800) * 0x400 + (lo - 0xDC00)) as char, t[6..]))
          else None
      else if 0xD800 <= hi <= 0xDFFF then None
      else Some((hi as char, t))
  }

  /** One character of a string body (raw or escaped); `s` does not start with the closing quote. */
  function StringChar(s: string): (r: Option<(char, string)>)
    requires s != []
    ensures r.Some? ==> |r.value.1| < |s|
  {
    if s[0] == '\\' then ParseEscape(s[1..])
    else if s[0] as int < 0x20 then None
    else Some((s[0], s[1..]))
  }

  /** The body of a string up to its closing quote; `s` follows the opening quote. */
  function ParseStringBody(s: string): (r: Option<(string, string)>)
    ensures r.Some? ==> |r.value.1| < |s|
    decreases |s|
  {
    if s == [] then None
    else if s[0] == '"' then Some(("", s[1..]))
    else
      match StringChar(s)
      case None => None
      case Some((c, rest)) =>
        match ParseStringBody(rest)
        case None => None
        case Some((body, rest')) => Some(([c] + body, rest'))
  }

  function ParseValue(s: string): (r: Option<(Json, string)>)
    ensures r.Some? ==> |r.value.1| < |s|
    decreases |s|, 3
  {
    ParseToken(SkipWs(s))
  }

  /** The literal word `w`, standing for `v`, at the start of `t`. */
  function ParseWord(t: string, w: string, v: Json): (r: Option<(Json, string)>)
    requires w != []
    ensures r.Some? ==> |r.value.1| < |t|
  {
    if |t| >= |w| && t[..|w|] == w then Some((v, t[|w|..])) else None
  }

  function ParseString(s: string): (r: Option<(Json, string)>)
    ensures r.Some? ==> |r.value.1| < |s|
  {
    match ParseStringBody(s)
    case None => None
    case Some((body, rest)) => Some((JStr(body), rest))
  }

  function ParseNumber(t: string): (r: Option<(Json, string)>)
    ensures r.Some? ==> |r.value.1| < |t|
  {
    var n := NumberLen(t);
    if n == 0 then None else Some((JNum(t[..n]), t[n..]))
  }

  /** A value starting right at the first character of `t`. */
  function ParseToken(t: string): (r: Option<(Json, string)>)
    ensures r.Some? ==> |r.value.1| < |t|
    decreases |t|, 2
  {
    if t == [] then None
    else if t[0] == 'n' then ParseWord(t, "null", JNull)
    else if t[0] == 't' then ParseWord(t, "true", JBool(true))
    else if t[0] == 'f' then ParseWord(t, "false", JBool(false))
    else if t[0] == '"' then ParseString(t[1..])
    else if t[0] == '[' then ParseArray(t[1..])
    else if t[0] == '{' then ParseObject(t[1..])
    else ParseNumber(t)
  }

  /** An array; `s` follows the '['. */
  function ParseArray(s: string): (r: Option<(Json, string)>)
    ensures r.Some? ==> |r.value.1| < |s|
    decreases |s|, 5
  {
    var t := SkipWs(s);
    if t != [] && t[0] == ']' then Some((JArr([]), t[1..]))
    else
      match ParseElements(t)
      case None => None
      case Some((items, rest)) => Some((JArr(items), rest))
  }

  /** One or more elements and the closing ']'. */
  function ParseElements(s: string): (r: Option<(seq<Json>, string)>)
    ensures r.Some? ==> |r.value.1| < |s|
    decreases |s|, 4
  {
    match ParseValue(s)
    case None => None
    case Some((v, r)) => ElementsTail(v, r)
  }

  /** What follows the element `v`: ']' ends the array, ',' continues it. */
  function ElementsTail(v: Json, r: string): (res: Option<(seq<Json>, string)>)
    ensures res.Some? ==> |res.value.1| < |r|
    decreases |r|, 5
  {
    var t := SkipWs(r);
    if t == [] then None
    else if t[0] == ']' then Some(([v], t[1..]))
    else if t[0] == ',' then
      match ParseElements(t[1..])
      case None => None
      case Some((vs, rest)) => Some(([v] + vs, rest))
    else None
  }

  /** An object; `s` follows the '{'. */
  function ParseObject(s: string): (r: Option<(Json, string)>)
    ensures r.Some? ==> |r.value.1| < |s|
    decreases |s|, 5
  {
    var t := SkipWs(s);
    if t != [] && t[0] == '}' then Some((JObj([]), t[1..]))
    else
      match ParseMembers(t)
      case None => None
      case Some((ms, rest)) => Some((JObj(ms), rest))
  }

  /** One or more `"key": value` members and the closing '}'. */
  function ParseMembers(s: string): (r: Option<(seq<Member>, string)>)
    ensures r.Some? ==> |r.value.1| < |s|
    decreases |s|, 4
  {
    ParseMembersAt(SkipWs(s))
  }

  /** Members starting right at the first character of `t`. */
  function ParseMembersAt(t: string): (r: Option<(seq<Member>, string)>)
    ensures r.Some? ==> |r.value.1| < |t|
    decreases |t|, 3
  {
    if t == [] || t[0] != '"' then None
    else
      match ParseStringBody(t[1..])
      case None => None
      case Some((key, r1)) => MemberAfterKey(key, r1)
  }

  /** The colon, the value and what follows them; `r` follows the key's closing quote. */
  function MemberAfterKey(key: string, r: string): (res: Option<(seq<Member>, string)>)
    ensures res.Some? ==> |res.value.1| < |r|
    decreases |r|, 6
  {
    var c := SkipWs(r);
    if c == [] || c[0] != ':' then None
    else
      match ParseValue(c[1..])
      case None => None
      case Some((v, r2)) => MembersTail(Member(key, v), r2)
  }

  /** What follows the member `m`: '}' ends the object, ',' continues it. */
  function MembersTail(m: Member, r: string): (res: Option<(seq<Member>, string)>)
    ensures res.Some? ==> |res.value.1| < |r|
    decreases |r|, 5
  {
    var u := SkipWs(r);
    if u == [] then None
    else if u[0] == '}' then Some(([m], u[1..]))
    else if u[0] == ',' then
      match ParseMembers(u[1..])
      case None => None
      case Some((ms, rest)) => Some(([m] + ms, rest))
    else None
  }

  /** `json.loads`: one value, surrounded by nothing but whitespace. */
  function ParseJson(s: string): Option<Json> {
    match ParseValue(s)
    case None => None
    case Some((v, rest)) => if SkipWs(rest) == [] then Some(v) else None
  }

  // ---------------------------------------------------------------------------
  // Round trip: json.loads(json.dumps(v)) == v

  /** What may follow a value without being read as part of it. */
  predicate Delimited(r: string) {
    r == [] || !(IsDigit(r[0]) || r[0] == '.' || r[0] == 'e' || r[0] == 'E')
  }

  lemma DropAppend(a: string, b: string, k: nat)
    requires k <= |a|
    ensures (a + b)[k..] == a[k..] + b
  {
  }

  lemma {:induction false} DigitsLenAppend(a: string, b: string)
    ensures DigitsLen(a + b) == if DigitsLen(a) < |a| then DigitsLen(a) else |a| + DigitsLen(b)
  {
    if a == [] {
      assert a + b == b;
    } else {
      assert (a + b)[1..] == a[1..] + b;
      DigitsLenAppend(a[1..], b);
    }
  }

  lemma IntLenAppend(t: string, r: string)
    requires 0 < IntLen(t)
    requires IntLen(t) == |t| ==> Delimited(r)
    ensures IntLen(t + r) == IntLen(t)
  {
    assert (t + r)[0] == t[0];
    if t[0] != '0' {
      DigitsLenAppend(t[1..], r);
      DropAppend(t, r, 1);
    }
  }

  lemma FracLenAppend(y: string, r: string)
    requires Delimited(r)
    requires ExpLen(y[FracLen(y)..]) == |y| - FracLen(y)
    ensures FracLen(y + r) == FracLen(y)
  {
    if FracLen(y) < |y| {
      assert y[FracLen(y)..][0] == y[FracLen(y)];
    }
    if FracLen(y) > 0 {
      assert (y + r)[0] == y[0] && (y + r)[1] == y[1];
      DigitsLenAppend(y[1..], r);
      DropAppend(y, r, 1);
    } else if y == [] {
      assert y + r == r;
    } else {
      assert (y + r)[0] == y[0];
    }
  }

  lemma SignedDigitsLenAppend(x: string, r: string)
    requires 0 < SignedDigitsLen(x) == |x| && Delimited(r)
    ensures SignedDigitsLen(x + r) == |x|
  {
    var sign := if x[0] == '+' || x[0] == '-' then 1 else 0;
    assert (x + r)[0] == x[0];
    DropAppend(x, r, sign);
    DigitsLenAppend(x[sign..], r);
  }

  lemma ExpLenAppend(w: string, r: string)
    requires ExpLen(w) == |w| && Delimited(r)
    ensures ExpLen(w + r) == |w|
  {
    if w == [] {
      assert w + r == r;
    } else {
      assert (w + r)[0] == w[0];
      DropAppend(w, r, 1);
      SignedDigitsLenAppend(w[1..], r);
    }
  }

  lemma FracExpLenAppend(y: string, r: string)
    requires FracExpLen(y) == |y| && Delimited(r)
    ensures FracExpLen(y + r) == |y|
  {
    var f := FracLen(y);
    FracLenAppend(y, r);
    DropAppend(y, r, f);
    ExpLenAppend(y[f..], r);
  }

  lemma UnsignedLenAppend(t: string, r: string)
    requires 0 < UnsignedLen(t) == |t| && Delimited(r)
    ensures UnsignedLen(t + r) == |t|
  {
    var i := IntLen(t);
    IntLenAppend(t, r);
    DropAppend(t, r, i);
    FracExpLenAppend(t[i..], r);
  }

  lemma NumberLenAppend(s: string, r: string)
    requires ValidNumLit(s) && Delimited(r)
    ensures NumberLen(s + r) == |s|
  {
    var sign := if s[0] == '-' then 1 else 0;
    assert (s + r)[0] == s[0];
    DropAppend(s, r, sign);
    UnsignedLenAppend(s[sign..], r);
  }

  lemma HexDigitRoundTrip(d: nat)
    requires d < 16
    ensures IsHex(HexDigit(d)) && HexVal(HexDigit(d)) == d
  {
  }

  lemma HexRoundTrip(n: nat, rest: string)
    requires n < 0x1_0000
    ensures ParseHex4(Hex4(n) + rest) == Some(n)
  {
    var n1 := n / 16;
    var n2 := n1 / 16;
    var h := Hex4(n) + rest;
    assert h[0] == HexDigit(n2 / 16) && h[1] == HexDigit(n2 % 16);
    assert h[2] == HexDigit(n1 % 16) && h[3] == HexDigit(n % 16);
    HexDigitRoundTrip(n2 / 16);
    HexDigitRoundTrip(n2 % 16);
    HexDigitRoundTrip(n1 % 16);
    HexDigitRoundTrip(n % 16);
    assert n2 == n2 / 16 * 16 + n2 % 16;
    assert n1 == n2 * 16 + n1 % 16;
    assert n == n1 * 16 + n % 16;
  }

  lemma EscapeBmpRoundTrip(c: char, rest: string)
    requires !(' ' <= c <= '~') && c != '\n' && c != '\r' && c != '\t'
    requires c as int != 0x08 && c as int != 0x0C && c as int < 0x1_0000
    ensures StringChar(EscapeChar(c) + rest) == Some((c, rest))
  {
    var e := EscapeChar(c);
    assert e == "\\u" + Hex4(c as int);
    var x := (e + rest)[2..];
    assert (e + rest)[1..] == "u" + x;
    assert x == Hex4(c as int) + rest;
    HexRoundTrip(c as int, rest);
    assert x[4..] == rest;
  }

  lemma Hex4Then(n: nat, rest: string)
    requires n < 0x1_0000
    ensures ParseHex4(Hex4(n) + rest) == Some(n) && (Hex4(n) + rest)[4..] == rest
  {
    HexRoundTrip(n, rest);
  }

  lemma UnicodePairRoundTrip(hi: nat, lo: nat, cp: nat, rest: string)
    requires 0xD800 <= hi <= 0xDBFF && 0xDC00 <= lo <= 0xDFFF
    requires cp == 0x1_0000 + (hi - 0xD800) * 0x400 + (lo - 0xDC00) < 0x11_0000
    ensures ParseUnicodeEscape(Hex4(hi) + "\\u" + Hex4(lo) + rest) == Some((cp as char, rest))
  {
    var y := Hex4(lo) + rest;
    var t := "\\u" + y;
    assert Hex4(hi) + "\\u" + Hex4(lo) + rest == Hex4(hi) + t;
    Hex4Then(hi, t);
    assert t[2..] == y;
    Hex4Then(lo, rest);
    assert t[6..] == y[4..];
  }

  /** The surrogate pair `ensure_ascii` writes for a character above U+FFFF. */
  lemma SurrogateSplit(v: int)
    requires 0 <= v < 0x10_0000
    ensures 0xD800 <= 0xD800 + v / 0x400 <= 0xDBFF && 0xDC00 <= 0xDC00 + v % 0x400 <= 0xDFFF
    ensures 0x1_0000 + (0xD800 + v / 0x400 - 0xD800) * 0x400 + (0xDC00 + v % 0x400 - 0xDC00) == 0x1_0000 + v
  {
  }

  lemma EscapeCharPair(c: char)
    requires c as int >= 0x1_0000
    ensures var v := c as int - 0x1_0000;
      EscapeChar(c) == "\\u" + Hex4(0xD800 + v / 0x400) + "\\u" + Hex4(0xDC00 + v % 0x400)
  {
    assert c != '"' && c != '\\' && c != '\n' && c != '\r' && c != '\t';
    assert c as int != 0x08 && c as int != 0x0C && !(' ' <= c <= '~') && !(c as int < 0x1_0000);
  }

  lemma StringCharUnicode(x: string)
    ensures StringChar("\\u" + x) == ParseUnicodeEscape(x)
  {
    assert ("\\u" + x)[1..] == "u" + x;
    assert ("u" + x)[1..] == x;
  }

  lemma EscapePairRoundTrip(c: char, rest: string)
    requires c as int >= 0x1_0000
    ensures StringChar(EscapeChar(c) + rest) == Some((c, rest))
  {
    var v := c as int - 0x1_0000;
    var hi, lo := 0xD800 + v / 0x400, 0xDC00 + v % 0x400;
    SurrogateSplit(v);
    EscapeCharPair(c);
    var x := Hex4(hi) + "\\u" + Hex4(lo) + rest;
    assert EscapeChar(c) + rest == "\\u" + x;
    StringCharUnicode(x);
    UnicodePairRoundTrip(hi, lo, c as int, rest);
  }

  lemma EscapeCharRoundTrip(c: char, rest: string)
    ensures StringChar(EscapeChar(c) + rest) == Some((c, rest))
  {
    var e := EscapeChar(c);
    if ' ' <= c <= '~' && c != '"' && c != '\\' {
      assert e == [c];
    } else if c == '"' || c == '\\' || c == '\n' || c == '\r' || c == '\t' || c as int == 0x08 || c as int == 0x0C {
      assert (e + rest)[1..] == [e[1]] + rest;
    } else if c as int < 0x1_0000 {
      EscapeBmpRoundTrip(c, rest);
    } else {
      EscapePairRoundTrip(c, rest);
    }
  }

  lemma {:induction false} QuoteRoundTrip(s: string, rest: string)
    ensures ParseStringBody(Escape(s) + "\"" + rest) == Some((s, rest))
  {
    if s == [] {
      assert Escape(s) + "\"" + rest == "\"" + rest;
    } else {
      var e := EscapeChar(s[0]);
      var tail := Escape(s[1..]) + "\"" + rest;
      assert Escape(s) + "\"" + rest == e + tail;
      EscapeCharRoundTrip(s[0], tail);
      QuoteRoundTrip(s[1..], rest);
      assert [s[0]] + s[1..] == s;
    }
  }

  lemma NumberStart(s: string)
    requires NumberLen(s) > 0
    ensures s[0] == '-' || IsDigit(s[0])
  {
  }

  /** Serialized values start with a token character, never with whitespace. */
  lemma SerializeStart(v: Json)
    requires WellFormed(v)
    ensures Serialize(v) != []
    ensures var c := Serialize(v)[0];
      c == 'n' || c == 't' || c == 'f' || c == '"' || c == '[' || c == '{' || c == '-' || IsDigit(c)
  {
    if v.JNum? { NumberStart(v.lit); }
  }

  lemma SkipSpace(s: string)
    ensures SkipWs(" " + s) == SkipWs(s)
  {
    assert (" " + s)[1..] == s;
  }

  lemma SkipNone(s: string)
    requires s == [] || !IsWs(s[0])
    ensures SkipWs(s) == s
  {
  }

  lemma ParseValueAfterSpace(s: string)
    ensures ParseValue(" " + s) == ParseValue(s)
  {
    SkipSpace(s);
  }

  lemma ParseMembersAfterSpace(s: string)
    ensures ParseMembers(" " + s) == ParseMembers(s)
  {
    SkipSpace(s);
  }

  lemma ParseWordAppend(w: string, v: Json, rest: string)
    requires w != []
    ensures ParseWord(w + rest, w, v) == Some((v, rest))
  {
    assert (w + rest)[..|w|] == w && (w + rest)[|w|..] == rest;
  }

  lemma ValueAt(t: string)
    requires t == [] || !IsWs(t[0])
    ensures ParseValue(t) == ParseToken(t)
  {
    SkipNone(t);
  }

  lemma NumberAt(t: string)
    requires t != [] && (t[0] == '-' || IsDigit(t[0]))
    ensures ParseValue(t) == ParseNumber(t)
  {
    assert t[0] != 'n' && t[0] != 't' && t[0] != 'f' && t[0] != '"' && t[0] != '[' && t[0] != '{';
    ValueAt(t);
  }

  lemma ParseNumberAppend(lit: string, rest: string)
    requires ValidNumLit(lit) && Delimited(rest)
    ensures ParseNumber(lit + rest) == Some((JNum(lit), rest))
  {
    NumberLenAppend(lit, rest);
    assert (lit + rest)[..|lit|] == lit && (lit + rest)[|lit|..] == rest;
  }

  lemma ParseSerializeNum(lit: string, rest: string)
    requires ValidNumLit(lit) && Delimited(rest)
    ensures ParseValue(lit + rest) == Some((JNum(lit), rest))
  {
    NumberStart(lit);
    assert (lit + rest)[0] == lit[0];
    NumberAt(lit + rest);
    ParseNumberAppend(lit, rest);
  }

  lemma QuoteText(str: string, rest: string)
    ensures Quote(str) + rest == "\"" + (Escape(str) + "\"" + rest)
  {
  }

  lemma StringAt(body: string)
    ensures ParseValue("\"" + body) == ParseString(body)
  {
    ValueAt("\"" + body);
    assert ("\"" + body)[1..] == body;
  }

  lemma ParseSerializeStr(str: string, rest: string)
    ensures ParseValue(Quote(str) + rest) == Some((JStr(str), rest))
  {
    QuoteText(str, rest);
    StringAt(Escape(str) + "\"" + rest);
    QuoteRoundTrip(str, rest);
  }

  lemma ParseSerializeWord(w: string, v: Json, rest: string)
    requires (w == "null" && v == JNull) || (w == "true" && v == JBool(true)) || (w == "false" && v == JBool(false))
    ensures ParseValue(w + rest) == Some((v, rest))
  {
    ValueAt(w + rest);
    ParseWordAppend(w, v, rest);
  }

  /** null, booleans, numbers and strings read back as themselves. */
  lemma ParseSerializeScalar(v: Json, rest: string)
    requires WellFormed(v) && Delimited(rest) && !v.JArr? && !v.JObj?
    ensures ParseValue(Serialize(v) + rest) == Some((v, rest))
  {
    match v
    case JNull => ParseSerializeWord("null", v, rest);
    case JBool(b) =>
      if b { ParseSerializeWord("true", v, rest); }
      else { ParseSerializeWord("false", v, rest); }
    case JNum(lit) => ParseSerializeNum(lit, rest);
    case JStr(str) => ParseSerializeStr(str, rest);
  }

  lemma {:induction false} ParseSerialize(v: Json, rest: string)
    requires WellFormed(v) && Delimited(rest)
    ensures ParseValue(Serialize(v) + rest) == Some((v, rest))
    decreases v, 1
  {
    if v.JArr? {
      ParseSerializeArray(v, rest);
    } else if v.JObj? {
      ParseSerializeObject(v, rest);
    } else {
      ParseSerializeScalar(v, rest);
    }
  }

  lemma ArrayAt(body: string)
    ensures ParseValue("[" + body) == ParseArray(body)
  {
    ValueAt("[" + body);
    assert ("[" + body)[1..] == body;
  }

  lemma ObjectAt(body: string)
    ensures ParseValue("{" + body) == ParseObject(body)
  {
    ValueAt("{" + body);
    assert ("{" + body)[1..] == body;
  }

  lemma ArrayEmpty(rest: string)
    ensures ParseArray("]" + rest) == Some((JArr([]), rest))
  {
    SkipNone("]" + rest);
  }

  lemma ObjectEmpty(rest: string)
    ensures ParseObject("}" + rest) == Some((JObj([]), rest))
  {
    SkipNone("}" + rest);
  }

  lemma ArrayElements(body: string)
    requires body != [] && !IsWs(body[0]) && body[0] != ']'
    ensures ParseArray(body) ==
      if ParseElements(body).None? then None
      else Some((JArr(ParseElements(body).value.0), ParseElements(body).value.1))
  {
    SkipNone(body);
  }

  lemma ObjectMembers(body: string)
    requires body != [] && !IsWs(body[0]) && body[0] != '}'
    ensures ParseObject(body) ==
      if ParseMembers(body).None? then None
      else Some((JObj(ParseMembers(body).value.0), ParseMembers(body).value.1))
  {
    SkipNone(body);
  }

  lemma ItemsStart(items: seq<Json>, tail: string)
    requires items != [] && WellFormed(items[0])
    ensures var b := SerializeItems(items) + tail; b != [] && !IsWs(b[0]) && b[0] != ']'
  {
    var first := Serialize(items[0]);
    SerializeStart(items[0]);
    var x := if |items| == 1 then "" else ", " + SerializeItems(items[1..]);
    assert SerializeItems(items) == first + x;
    assert (first + x + tail)[0] == first[0];
  }

  lemma MembersStart(ms: seq<Member>, tail: string)
    requires ms != []
    ensures var b := SerializeMembers(ms) + tail; b != [] && b[0] == '"'
  {
    var first := SerializeMember(ms[0]);
    assert first == "\"" + Escape(ms[0].key) + "\"" + ": " + Serialize(ms[0].value);
    assert first[0] == '"';
    var x := if |ms| == 1 then "" else ", " + SerializeMembers(ms[1..]);
    assert SerializeMembers(ms) == first + x;
    assert (first + x + tail)[0] == first[0];
  }

  lemma EmptyText(x: string, close: string, rest: string)
    requires x == []
    ensures x + close + rest == close + rest
  {
  }

  lemma ArrayEmptyBody(items: seq<Json>, rest: string)
    requires items == []
    ensures ParseArray(SerializeItems(items) + "]" + rest) == Some((JArr(items), rest))
  {
    EmptyText(SerializeItems(items), "]", rest);
    ArrayEmpty(rest);
  }

  lemma ObjectEmptyBody(ms: seq<Member>, rest: string)
    requires ms == []
    ensures ParseObject(SerializeMembers(ms) + "}" + rest) == Some((JObj(ms), rest))
  {
    EmptyText(SerializeMembers(ms), "}", rest);
    ObjectEmpty(rest);
  }

  lemma ArrayText(items: seq<Json>, rest: string)
    ensures Serialize(JArr(items)) + rest == "[" + (SerializeItems(items) + "]" + rest)
  {
  }

  lemma ObjectText(ms: seq<Member>, rest: string)
    ensures Serialize(JObj(ms)) + rest == "{" + (SerializeMembers(ms) + "}" + rest)
  {
  }

  lemma ValueOfArray(items: seq<Json>, rest: string)
    ensures ParseValue(Serialize(JArr(items)) + rest) == ParseArray(SerializeItems(items) + "]" + rest)
  {
    ArrayText(items, rest);
    ArrayAt(SerializeItems(items) + "]" + rest);
  }

  lemma ValueOfObject(ms: seq<Member>, rest: string)
    ensures ParseValue(Serialize(JObj(ms)) + rest) == ParseObject(SerializeMembers(ms) + "}" + rest)
  {
    ObjectText(ms, rest);
    ObjectAt(SerializeMembers(ms) + "}" + rest);
  }

  lemma {:induction false} ParseSerializeArray(v: Json, rest: string)
    requires v.JArr? && WellFormed(v)
    ensures ParseValue(Serialize(v) + rest) == Some((v, rest))
    decreases v, 0
  {
    ValueOfArray(v.items, rest);
    if v.items == [] {
      ArrayEmptyBody(v.items, rest);
    } else {
      ParseSerializeElements(v.items, rest);
    }
  }

  lemma {:induction false} ParseSerializeElements(items: seq<Json>, rest: string)
    requires items != [] && forall i | 0 <= i < |items| :: WellFormed(items[i])
    ensures ParseArray(SerializeItems(items) + "]" + rest) == Some((JArr(items), rest))
    decreases items, 2
  {
    var body := SerializeItems(items) + "]" + rest;
    ItemsStart(items, "]" + rest);
    assert body == SerializeItems(items) + ("]" + rest);
    ArrayElements(body);
    ParseSerializeItems(items, rest);
  }

  lemma {:induction false} ParseSerializeObject(v: Json, rest: string)
    requires v.JObj? && WellFormed(v)
    ensures ParseValue(Serialize(v) + rest) == Some((v, rest))
    decreases v, 0
  {
    ValueOfObject(v.members, rest);
    if v.members == [] {
      ObjectEmptyBody(v.members, rest);
    } else {
      ParseSerializeFields(v.members, rest);
    }
  }

  lemma {:induction false} ParseSerializeFields(ms: seq<Member>, rest: string)
    requires ms != [] && forall i | 0 <= i < |ms| :: WellFormed(ms[i].value)
    ensures ParseObject(SerializeMembers(ms) + "}" + rest) == Some((JObj(ms), rest))
    decreases ms, 3
  {
    var body := SerializeMembers(ms) + "}" + rest;
    MembersStart(ms, "}" + rest);
    assert body == SerializeMembers(ms) + ("}" + rest);
    ObjectMembers(body);
    ParseSerializeMembers(ms, rest);
  }

  lemma SplitFirst<T>(xs: seq<T>)
    requires xs != []
    ensures xs == [xs[0]] + xs[1..]
  {
  }

  lemma ElementsTailClose(v: Json, items: seq<Json>, rest: string)
    requires items == [v]
    ensures ElementsTail(v, "]" + rest) == Some((items, rest))
  {
    SkipNone("]" + rest);
  }

  lemma ParseElementsAfterSpace(s: string)
    ensures ParseElements(" " + s) == ParseElements(s)
  {
    ParseValueAfterSpace(s);
  }

  lemma ElementsTailComma(v: Json, more: string)
    ensures ElementsTail(v, ", " + more) ==
      if ParseElements(more).None? then None
      else Some(([v] + ParseElements(more).value.0, ParseElements(more).value.1))
  {
    var t := ", " + more;
    SkipNone(t);
    assert t[1..] == " " + more;
    ParseElementsAfterSpace(more);
  }

  lemma ElementsTailCons(v: Json, more: string, vs: seq<Json>, items: seq<Json>, rest: string)
    requires ParseElements(more) == Some((vs, rest)) && items == [v] + vs
    ensures ElementsTail(v, ", " + more) == Some((items, rest))
  {
    ElementsTailComma(v, more);
  }

  lemma {:induction false} ParseSerializeItems(items: seq<Json>, rest: string)
    requires items != [] && forall i | 0 <= i < |items| :: WellFormed(items[i])
    ensures ParseElements(SerializeItems(items) + "]" + rest) == Some((items, rest))
    decreases items, 1
  {
    if |items| == 1 {
      ParseSerializeLastItem(items, rest);
    } else {
      ParseSerializeMoreItems(items, rest);
    }
  }

  lemma {:induction false} ParseSerializeLastItem(items: seq<Json>, rest: string)
    requires |items| == 1 && WellFormed(items[0])
    ensures ParseElements(SerializeItems(items) + "]" + rest) == Some((items, rest))
    decreases items, 0
  {
    var v := items[0];
    assert SerializeItems(items) + "]" + rest == Serialize(v) + ("]" + rest);
    ParseSerialize(v, "]" + rest);
    ElementsTailClose(v, items, rest);
  }

  lemma ItemsSplit(items: seq<Json>, more: string, rest: string)
    requires |items| > 1 && more == SerializeItems(items[1..]) + "]" + rest
    ensures SerializeItems(items) + "]" + rest == Serialize(items[0]) + (", " + more)
  {
    var first, others := Serialize(items[0]), SerializeItems(items[1..]);
    assert SerializeItems(items) == first + ", " + others;
    Assoc(first + ", " + others, "]", rest);
    Assoc(first + ", ", others, "]" + rest);
    Assoc(first, ", ", others + ("]" + rest));
    Assoc(others, "]", rest);
  }

  lemma {:induction false} ParseSerializeMoreItems(items: seq<Json>, rest: string)
    requires |items| > 1 && forall i | 0 <= i < |items| :: WellFormed(items[i])
    ensures ParseElements(SerializeItems(items) + "]" + rest) == Some((items, rest))
    decreases items, 0
  {
    var v := items[0];
    var more := SerializeItems(items[1..]) + "]" + rest;
    ItemsSplit(items, more, rest);
    ParseSerialize(v, ", " + more);
    ParseSerializeItems(items[1..], rest);
    SplitFirst(items);
    ElementsTailCons(v, more, items[1..], items, rest);
  }

  lemma MembersTailClose(m: Member, ms: seq<Member>, rest: string)
    requires ms == [m]
    ensures MembersTail(m, "}" + rest) == Some((ms, rest))
  {
    SkipNone("}" + rest);
  }

  lemma MembersTailComma(m: Member, more: string)
    ensures MembersTail(m, ", " + more) ==
      if ParseMembers(more).None? then None
      else Some(([m] + ParseMembers(more).value.0, ParseMembers(more).value.1))
  {
    SkipNone(", " + more);
    assert (", " + more)[1..] == " " + more;
    ParseMembersAfterSpace(more);
  }

  lemma MemberSplit(m: Member, after: string)
    ensures SerializeMember(m) + after == "\"" + (Escape(m.key) + "\"" + (": " + (Serialize(m.value) + after)))
  {
    var q, sv := Escape(m.key), Serialize(m.value);
    assert SerializeMember(m) == "\"" + q + "\"" + ": " + sv;
    Assoc("\"" + q + "\"" + ": ", sv, after);
    Assoc("\"" + q + "\"", ": ", sv + after);
    Assoc("\"" + q, "\"", ": " + (sv + after));
    Assoc("\"", q, "\"" + (": " + (sv + after)));
    Assoc(q, "\"", ": " + (sv + after));
  }

  lemma KeyThen(key: string, c: string)
    ensures ParseMembersAt("\"" + (Escape(key) + "\"" + c)) == MemberAfterKey(key, c)
  {
    var t := "\"" + (Escape(key) + "\"" + c);
    assert t[1..] == Escape(key) + "\"" + c;
    QuoteRoundTrip(key, c);
  }

  lemma ColonValue(key: string, x: string)
    ensures MemberAfterKey(key, ": " + x) ==
      if ParseValue(x).None? then None
      else MembersTail(Member(key, ParseValue(x).value.0), ParseValue(x).value.1)
  {
    var c := ": " + x;
    SkipNone(c);
    assert c[1..] == " " + x;
    ParseValueAfterSpace(x);
  }

  lemma ColonThen(m: Member, after: string)
    requires ParseValue(Serialize(m.value) + after) == Some((m.value, after))
    ensures MemberAfterKey(m.key, ": " + (Serialize(m.value) + after)) == MembersTail(m, after)
  {
    ColonValue(m.key, Serialize(m.value) + after);
  }

  lemma MembersTailCons(m: Member, more: string, tail: seq<Member>, ms: seq<Member>, rest: string)
    requires ParseMembers(more) == Some((tail, rest)) && ms == [m] + tail
    ensures MembersTail(m, ", " + more) == Some((ms, rest))
  {
    MembersTailComma(m, more);
  }

  /** A key, the colon and a value that reads back leave the rest to `MembersTail`. */
  lemma MemberHead(m: Member, after: string)
    requires ParseValue(Serialize(m.value) + after) == Some((m.value, after))
    ensures ParseMembersAt(SerializeMember(m) + after) == MembersTail(m, after)
  {
    MemberSplit(m, after);
    KeyThen(m.key, ": " + (Serialize(m.value) + after));
    ColonThen(m, after);
  }

  lemma Assoc(a: string, b: string, c: string)
    ensures (a + b) + c == a + (b + c)
  {
  }

  /** The serialized members, split at the first one; `after` is what follows its value. */
  lemma MembersSplit(ms: seq<Member>, rest: string, after: string)
    requires ms != []
    requires after == if |ms| == 1 then "}" + rest else ", " + (SerializeMembers(ms[1..]) + "}" + rest)
    ensures SerializeMembers(ms) + "}" + rest == SerializeMember(ms[0]) + after
  {
    var first := SerializeMember(ms[0]);
    if |ms| == 1 {
      assert SerializeMembers(ms) == first;
      Assoc(first, "}", rest);
    } else {
      var more := SerializeMembers(ms[1..]);
      assert SerializeMembers(ms) == first + ", " + more;
      Assoc(first + ", " + more, "}", rest);
      Assoc(first + ", ", more, "}" + rest);
      Assoc(first, ", ", more + ("}" + rest));
      Assoc(more, "}", rest);
    }
  }

  lemma MembersAt(t: string)
    requires t != [] && t[0] == '"'
    ensures ParseMembers(t) == ParseMembersAt(t)
  {
    SkipNone(t);
  }

  lemma MembersOfFirst(ms: seq<Member>, rest: string, after: string)
    requires ms != []
    requires after == if |ms| == 1 then "}" + rest else ", " + (SerializeMembers(ms[1..]) + "}" + rest)
    ensures ParseMembers(SerializeMembers(ms) + "}" + rest) == ParseMembersAt(SerializeMember(ms[0]) + after)
  {
    MembersSplit(ms, rest, after);
    MembersStart(ms, "}" + rest);
    MembersAt(SerializeMembers(ms) + "}" + rest);
  }

  /** Reading the first member back leaves `after` to `MembersTail`. */
  lemma FirstMember(ms: seq<Member>, rest: string, after: string)
    requires ms != []
    requires after == if |ms| == 1 then "}" + rest else ", " + (SerializeMembers(ms[1..]) + "}" + rest)
    requires ParseValue(Serialize(ms[0].value) + after) == Some((ms[0].value, after))
    ensures ParseMembers(SerializeMembers(ms) + "}" + rest) == MembersTail(ms[0], after)
  {
    MembersOfFirst(ms, rest, after);
    MemberHead(ms[0], after);
  }

  lemma {:induction false} ParseSerializeMembers(ms: seq<Member>, rest: string)
    requires ms != [] && forall i | 0 <= i < |ms| :: WellFormed(ms[i].value)
    ensures ParseMembers(SerializeMembers(ms) + "}" + rest) == Some((ms, rest))
    decreases ms, 2
  {
    if |ms| == 1 {
      ParseSerializeLastMember(ms, rest);
    } else {
      ParseSerializeMoreMembers(ms, rest);
    }
  }

  lemma {:induction false} ParseSerializeLastMember(ms: seq<Member>, rest: string)
    requires |ms| == 1 && WellFormed(ms[0].value)
    ensures ParseMembers(SerializeMembers(ms) + "}" + rest) == Some((ms, rest))
    decreases ms, 1
  {
    var after := "}" + rest;
    ParseSerialize(ms[0].value, after);
    FirstMember(ms, rest, after);
    MembersTailClose(ms[0], ms, rest);
  }

  lemma {:induction false} ParseSerializeMoreMembers(ms: seq<Member>, rest: string)
    requires |ms| > 1 && forall i | 0 <= i < |ms| :: WellFormed(ms[i].value)
    ensures ParseMembers(SerializeMembers(ms) + "}" + rest) == Some((ms, rest))
    decreases ms, 1
  {
    var after := ", " + (SerializeMembers(ms[1..]) + "}" + rest);
    ParseSerialize(ms[0].value, after);
    FirstMember(ms, rest, after);
    ParseSerializeOtherMembers(ms, rest);
  }

  lemma {:induction false} ParseSerializeOtherMembers(ms: seq<Member>, rest: string)
    requires |ms| > 1 && forall i | 0 <= i < |ms| :: WellFormed(ms[i].value)
    ensures MembersTail(ms[0], ", " + (SerializeMembers(ms[1..]) + "}" + rest)) == Some((ms, rest))
    decreases ms, 0
  {
    var more := SerializeMembers(ms[1..]) + "}" + rest;
    ParseSerializeMembers(ms[1..], rest);
    SplitFirst(ms);
    MembersTailCons(ms[0], more, ms[1..], ms, rest);
  }

  /** `json.loads(json.dumps(v)) == v` for every value whose numbers are lexemes. */
  lemma RoundTrip(v: Json)
    requires WellFormed(v)
    ensures ParseJson(Serialize(v)) == Some(v)
  {
    ParseSerialize(v, []);
    assert Serialize(v) + [] == Serialize(v);
  }
}

=== FILE: safety.dfy ===
/**
 * The risk gate of rugsbot/safety.py: a record of trades and daily results
 * that decides whether a bet may be placed and whether a position should be
 * sold, and that latches an emergency stop.
 *
 * The limits it reads from the configuration module are a parameter, the
 * clock is a parameter (`now`), and reasons are named cases instead of the
 * formatted messages the source returns and logs.
 */
module Safety {
  import opened Wrappers

  /** One trade; `exitTime`, `exitPrice` and `profit` are set when it closes. */
  datatype Trade = Trade(
    entryTime: real,
    entryPrice: real,
    stake: real,
    betId: Option<string>,
    exitTime: Option<real>,
    exitPrice: Option<real>,
    profit: Option<real>,
    isActive: bool)

  /** The settings the manager reads: MAX_DAILY_LOSS, MAX_CONSECUTIVE_LOSSES and the sell rules. */
  datatype Limits = Limits(
    maxDailyLoss: real,
    maxConsecutiveLosses: int,
    profitTarget: real,         // PER_TRADE_PROFIT_MULTIPLIER_TARGET
    stopLoss: real,             // STOP_LOSS_MULTIPLIER
    maxPositionTime: real)      // MAX_POSITION_TIME_SECONDS

  datatype Reason =
    | EmergencyStopActive
    | AlreadyInPosition
    | DailyLossLimit
    | ConsecutiveLossLimit
    | SafeToPlace
    | NoActivePosition
    | ProfitTarget
    | StopLoss
    | PositionTimeLimit
    | EmergencyStop
    | Hold

  /** The pair (decision, reason) both checks return. */
  datatype Verdict = Verdict(go: bool, reason: Reason)

  /** The reasons for which `should_place_bet` also latches the emergency stop. */
  predicate Trips(reason: Reason) {
    reason == DailyLossLimit || reason == ConsecutiveLossLimit
  }

  /**
   * `should_place_bet`: the checks in order, the first that fails decides.
   */
  function PlaceVerdict(limits: Limits, emergency: bool, inPosition: bool, dailyLoss: real, losses: nat): (v: Verdict)
    ensures v.go <==> !emergency && !inPosition && dailyLoss < limits.maxDailyLoss && losses < limits.maxConsecutiveLosses
    ensures v.go <==> v.reason == SafeToPlace
    ensures emergency ==> v.reason == EmergencyStopActive
    ensures !emergency && inPosition ==> v.reason == AlreadyInPosition
    ensures !emergency && !inPosition && dailyLoss >= limits.maxDailyLoss ==> v.reason == DailyLossLimit
    ensures !emergency && !inPosition && dailyLoss < limits.maxDailyLoss && losses >= limits.maxConsecutiveLosses ==>
              v.reason == ConsecutiveLossLimit
    ensures Trips(v.reason) <==>
              (!emergency && !inPosition && (dailyLoss >= limits.maxDailyLoss || losses >= limits.maxConsecutiveLosses))
  {
    if emergency then Verdict(false, EmergencyStopActive)
    else if inPosition then Verdict(false, AlreadyInPosition)
    else if dailyLoss >= limits.maxDailyLoss then Verdict(false, DailyLossLimit)
    else if losses >= limits.maxConsecutiveLosses then Verdict(false, ConsecutiveLossLimit)
    else Verdict(true, SafeToPlace)
  }

  /**
   * `should_sell_position` for an open position at multiplier `m` and age
   * `age`: the profit target first, then the stop loss, the position time
   * and the emergency stop.
   */
  function SellVerdict(limits: Limits, m: real, age: real, emergency: bool): (v: Verdict)
    ensures v.go <==> m >= limits.profitTarget || m <= limits.stopLoss || age >= limits.maxPositionTime || emergency
    ensures v.go <==> v.reason != Hold
    ensures m >= limits.profitTarget ==> v.reason == ProfitTarget
    ensures m < limits.profitTarget && m <= limits.stopLoss ==> v.reason == StopLoss
    ensures m < limits.profitTarget && m > limits.stopLoss && age >= limits.maxPositionTime ==> v.reason == PositionTimeLimit
    ensures m < limits.profitTarget && m > limits.stopLoss && age < limits.maxPositionTime && emergency ==>
              v.reason == EmergencyStop
    ensures v.reason == EmergencyStop ==> emergency && m < limits.profitTarget && m > limits.stopLoss && age < limits.maxPositionTime
  {
    if m >= limits.profitTarget then Verdict(true, ProfitTarget)
    else if m <= limits.stopLoss then Verdict(true, StopLoss)
    else if age >= limits.maxPositionTime then Verdict(true, PositionTimeLimit)
    else if emergency then Verdict(true, EmergencyStop)
    else Verdict(false, Hold)
  }

  /**
   * The profit of closing `t`: the payout less the stake when the exchange
   * reports a payout, otherwise the stake times the price gain.
   */
  function TradeProfit(t: Trade, exitPrice: real, payout: Option<real>): real
    requires payout.None? ==> t.entryPrice != 0.0
  {
    if payout.Some? then payout.value - t.stake
    else t.stake * (exitPrice / t.entryPrice - 1.0)
  }

  /** Without a payout, a trade with a positive stake and entry price profits exactly when the price rose. */
  lemma ProfitFollowsPrice(t: Trade, exitPrice: real)
    requires t.stake > 0.0 && t.entryPrice > 0.0
    ensures TradeProfit(t, exitPrice, None) > 0.0 <==> exitPrice > t.entryPrice
  {
    var ratio := exitPrice / t.entryPrice;
    assert exitPrice == ratio * t.entryPrice;
    if ratio > 1.0 {
      assert t.stake * (ratio - 1.0) > 0.0;
    } else {
      assert t.stake * (ratio - 1.0) <= 0.0;
    }
  }

  /** The trades entered at or after `start`. */
  function EnteredSince(trades: seq<Trade>, start: real): (n: nat)
    ensures n <= |trades|
  {
    if trades == [] then 0
    else EnteredSince(trades[..|trades| - 1], start) + (if trades[|trades| - 1].entryTime >= start then 1 else 0)
  }

  /** Of those, the ones closed with a positive profit. */
  function ProfitableSince(trades: seq<Trade>, start: real): (n: nat)
    ensures n <= EnteredSince(trades, start)
  {
    if trades == [] then 0
    else
      var t := trades[|trades| - 1];
      ProfitableSince(trades[..|trades| - 1], start)
        + (if t.entryTime >= start && t.profit.Some? && t.profit.value > 0.0 then 1 else 0)
  }

  /** The dictionary `get_daily_stats` returns. */
  datatype DailyStats = DailyStats(
    totalTrades: nat,
    profitableTrades: nat,
    winRate: real,
    dailyProfit: real,
    dailyLoss: real,
    netProfit: real,
    consecutiveWins: nat,
    consecutiveLosses: nat,
    emergencyStop: bool,
    stopReason: Option<Reason>)

  /** The win rate in percent; 0 when there were no trades. */
  function WinRate(profitable: nat, total: nat): (r: real)
    requires profitable <= total
    ensures 0.0 <= r <= 100.0
    ensures total == 0 ==> r == 0.0
    ensures r == 100.0 <==> total > 0 && profitable == total
  {
    if total > 0 then profitable as real / total as real * 100.0 else 0.0
  }

  class SafetyManager {
    const limits: Limits
    var dailyStartTime: real
    var dailyProfit: real
    var dailyLoss: real
    var consecutiveLosses: nat
    var consecutiveWins: nat
    var trades: seq<Trade>
    /** `current_trade`, which is always the last trade appended: its index in `trades`. */
    var current: Option<nat>
    var emergencyStop: bool
    var stopReason: Option<Reason>

    /**
     * The daily totals are never negative, at most one streak is running,
     * and the current trade is the last one and still open.
     */
    predicate Valid()
      reads this
    {
      dailyProfit >= 0.0 && dailyLoss >= 0.0
      && (consecutiveWins == 0 || consecutiveLosses == 0)
      && (current.Some? ==> current.value == |trades| - 1 && trades[current.value].isActive)
    }

    /** A fresh manager, its day starting at `now`. */
    constructor(limits: Limits, now: real)
      ensures Valid() && this.limits == limits && dailyStartTime == now
      ensures dailyProfit == 0.0 && dailyLoss == 0.0 && consecutiveLosses == 0 && consecutiveWins == 0
      ensures trades == [] && current == None && !emergencyStop && stopReason == None
    {
      this.limits := limits;
      dailyStartTime := now;
      dailyProfit := 0.0;
      dailyLoss := 0.0;
      consecutiveLosses := 0;
      consecutiveWins := 0;
      trades := [];
      current := None;
      emergencyStop := false;
      stopReason := None;
    }

    /** `trigger_emergency_stop`: latch the stop with its reason. */
    method TriggerEmergencyStop(reason: Reason)
      modifies this
      ensures emergencyStop && stopReason == Some(reason)
      ensures dailyStartTime == old(dailyStartTime) && dailyProfit == old(dailyProfit) && dailyLoss == old(dailyLoss)
      ensures consecutiveLosses == old(consecutiveLosses) && consecutiveWins == old(consecutiveWins)
      ensures trades == old(trades) && current == old(current)
    {
      emergencyStop := true;
      stopReason := Some(reason);
    }

    /**
     * `should_place_bet`: the verdict of the ordered checks; the daily-loss
     * and losing-streak denials also latch the emergency stop.
     */
    method ShouldPlaceBet(currentPrice: real) returns (ok: bool, reason: Reason)
      requires Valid()
      modifies this
      ensures Valid()
      ensures Verdict(ok, reason)
                == PlaceVerdict(limits, old(emergencyStop), old(current).Some?, old(dailyLoss), old(consecutiveLosses))
      ensures Trips(reason) ==> emergencyStop && stopReason == Some(reason)
      ensures !Trips(reason) ==> emergencyStop == old(emergencyStop) && stopReason == old(stopReason)
      ensures dailyStartTime == old(dailyStartTime) && dailyProfit == old(dailyProfit) && dailyLoss == old(dailyLoss)
      ensures consecutiveLosses == old(consecutiveLosses) && consecutiveWins == old(consecutiveWins)
      ensures trades == old(trades) && current == old(current)
    {
      if emergencyStop {
        return false, EmergencyStopActive;
      }
      if current.Some? && trades[current.value].isActive {
        return false, AlreadyInPosition;
      }
      if dailyLoss >= limits.maxDailyLoss {
        TriggerEmergencyStop(DailyLossLimit);
        return false, DailyLossLimit;
      }
      if consecutiveLosses >= limits.maxConsecutiveLosses {
        TriggerEmergencyStop(ConsecutiveLossLimit);
        return false, ConsecutiveLossLimit;
      }
      return true, SafeToPlace;
    }

    /**
     * `should_sell_position` at time `now`: no position means no sale;
     * otherwise the verdict on the price multiple of the entry price and
     * the position's age.  The source divides by the entry price unguarded.
     */
    method ShouldSellPosition(currentPrice: real, now: real) returns (sell: bool, reason: Reason)
      requires Valid()
      requires current.Some? ==> trades[current.value].entryPrice != 0.0
      ensures current.None? ==> !sell && reason == NoActivePosition
      ensures current.Some? ==>
                var t := trades[current.value];
                Verdict(sell, reason) == SellVerdict(limits, currentPrice / t.entryPrice, now - t.entryTime, emergencyStop)
    {
      if current.None? || !trades[current.value].isActive {
        return false, NoActivePosition;
      }
      var t := trades[current.value];
      var multiplier := currentPrice / t.entryPrice;
      if multiplier >= limits.profitTarget {
        return true, ProfitTarget;
      }
      if multiplier <= limits.stopLoss {
        return true, StopLoss;
      }
      var positionTime := now - t.entryTime;
      if positionTime >= limits.maxPositionTime {
        return true, PositionTimeLimit;
      }
      if emergencyStop {
        return true, EmergencyStop;
      }
      return false, Hold;
    }

    /**
     * `start_trade`: append one open trade entered at `now` and make it the
     * current one; the trades before it are untouched.
     */
    method StartTrade(entryPrice: real, stake: real, betId: Option<string>, now: real) returns (t: Trade)
      requires Valid()
      modifies this
      ensures Valid()
      ensures t == Trade(now, entryPrice, stake, betId, None, None, None, true)
      ensures trades == old(trades) + [t] && current == Some(|old(trades)|)
      ensures dailyStartTime == old(dailyStartTime) && dailyProfit == old(dailyProfit) && dailyLoss == old(dailyLoss)
      ensures consecutiveLosses == old(consecutiveLosses) && consecutiveWins == old(consecutiveWins)
      ensures emergencyStop == old(emergencyStop) && stopReason == old(stopReason)
    {
      t := Trade(now, entryPrice, stake, betId, None, None, None, true);
      trades := trades + [t];
      current := Some(|trades| - 1);
    }

    /**
     * `close_trade` at time `now`: with no open trade nothing changes and
     * None is returned.  Otherwise the trade is closed with its profit,
     * a win adds to the daily profit and the winning streak and ends the
     * losing one, anything else adds its size to the daily loss and the
     * losing streak and ends the winning one, and there is no current trade
     * any more.  The result line divides by the entry price even when a
     * payout is given.
     */
    method CloseTrade(exitPrice: real, payout: Option<real>, now: real) returns (closed: Option<Trade>)
      requires Valid()
      requires current.Some? ==> trades[current.value].entryPrice != 0.0
      modifies this
      ensures Valid()
      ensures old(current).None? ==>
                closed.None? && trades == old(trades) && current == None
                && dailyProfit == old(dailyProfit) && dailyLoss == old(dailyLoss)
                && consecutiveWins == old(consecutiveWins) && consecutiveLosses == old(consecutiveLosses)
      ensures old(current).Some? ==>
                var i := old(current).value;
                var t := old(trades)[i];
                var profit := TradeProfit(t, exitPrice, payout);
                closed == Some(t.(exitTime := Some(now), exitPrice := Some(exitPrice), profit := Some(profit), isActive := false))
                && trades == old(trades)[i := closed.value] && current == None
                && (profit > 0.0 ==>
                      dailyProfit == old(dailyProfit) + profit && dailyLoss == old(dailyLoss)
                      && consecutiveWins == old(consecutiveWins) + 1 && consecutiveLosses == 0)
                && (profit <= 0.0 ==>
                      dailyLoss == old(dailyLoss) - profit && dailyProfit == old(dailyProfit)
                      && consecutiveLosses == old(consecutiveLosses) + 1 && consecutiveWins == 0)
      ensures dailyStartTime == old(dailyStartTime) && emergencyStop == old(emergencyStop) && stopReason == old(stopReason)
    {
      if current.None? || !trades[current.value].isActive {
        return None;
      }
      var i := current.value;
      var t := trades[i];
      var profit := TradeProfit(t, exitPrice, payout);
      t := t.(exitTime := Some(now), exitPrice := Some(exitPrice), profit := Some(profit), isActive := false);
      trades := trades[i := t];
      if profit > 0.0 {
        dailyProfit := dailyProfit + profit;
        consecutiveWins := consecutiveWins + 1;
        consecutiveLosses := 0;
      } else {
        dailyLoss := dailyLoss + (if profit < 0.0 then -profit else profit);
        consecutiveLosses := consecutiveLosses + 1;
        consecutiveWins := 0;
      }
      current := None;
      return Some(t);
    }

    /** `reset_daily_stats`: a new day starts once 86400 seconds have passed since the last one. */
    method ResetDailyStats(now: real)
      modifies this
      ensures now - old(dailyStartTime) >= 86400.0 ==>
                dailyStartTime == now && dailyProfit == 0.0 && dailyLoss == 0.0
      ensures now - old(dailyStartTime) < 86400.0 ==>
                dailyStartTime == old(dailyStartTime) && dailyProfit == old(dailyProfit) && dailyLoss == old(dailyLoss)
      ensures consecutiveLosses == old(consecutiveLosses) && consecutiveWins == old(consecutiveWins)
      ensures trades == old(trades) && current == old(current)
      ensures emergencyStop == old(emergencyStop) && stopReason == old(stopReason)
      ensures old(Valid()) ==> Valid()
    {
      if now - dailyStartTime >= 86400.0 {
        dailyStartTime := now;
        dailyProfit := 0.0;
        dailyLoss := 0.0;
      }
    }

    /** `get_daily_stats`. */
    function GetDailyStats(): (r: DailyStats)
      reads this
      ensures r.profitableTrades <= r.totalTrades <= |trades|
      ensures 0.0 <= r.winRate <= 100.0 && (r.totalTrades == 0 ==> r.winRate == 0.0)
      ensures r.netProfit == r.dailyProfit - r.dailyLoss
      ensures Valid() ==> r.netProfit <= r.dailyProfit
    {
      var total := EnteredSince(trades, dailyStartTime);
      var profitable := ProfitableSince(trades, dailyStartTime);
      DailyStats(total, profitable, WinRate(profitable, total), dailyProfit, dailyLoss, dailyProfit - dailyLoss,
                 consecutiveWins, consecutiveLosses, emergencyStop, stopReason)
    }
  }
}

=== FILE: socketio.dfy ===
/**
 * The Socket.IO framing the bot speaks over its websocket (rugsbot/utils.py).
 *
 * Engine.IO v4 packets are single characters in front of the data: '0' open,
 * '2' ping, '3' pong, '4' message; a Socket.IO v5 EVENT inside a message adds
 * '2', so an event travels as "42" followed by the JSON array [name, payload].
 * A decoded frame is the pair (event name, payload) of Python values, with
 * `None` written `JNull`, so (None, None) is `Nothing`.
 */
module SocketIO {
  import opened Wrappers
  import opened Json

  datatype Decoded = Decoded(name: Json, payload: Json)

  /** The pair (None, None): not a frame the bot understands. */
  const Nothing := Decoded(JNull, JNull)

  const EnginePing := JStr("engine_ping")
  const EnginePong := JStr("engine_pong")
  const EngineOpen := JStr("engine_open")

  predicate StartsWith(s: string, prefix: string) {
    |prefix| <= |s| && s[..|prefix|] == prefix
  }

  /** The JSON text is a list of exactly two values. */
  predicate IsPair(v: Option<Json>) {
    v.Some? && v.value.JArr? && |v.value.items| == 2
  }

  /**
   * `parse_socketio_message` with the behaviour its documentation and its
   * handlers describe: an event is a two-element list, and every other
   * outcome of the "42" branch is (None, None).
   */
  function Decode(message: string): (r: Decoded)
    ensures message == "2" ==> r == Decoded(EnginePing, JNull)
    ensures message == "3" ==> r == Decoded(EnginePong, JNull)
    ensures StartsWith(message, "42") && IsPair(ParseJson(message[2..])) ==>
              r == Decoded(ParseJson(message[2..]).value.items[0], ParseJson(message[2..]).value.items[1])
    ensures StartsWith(message, "42") && !IsPair(ParseJson(message[2..])) ==> r == Nothing
    ensures StartsWith(message, "0{") ==>
              r == (if ParseJson(message[1..]).Some? then Decoded(EngineOpen, ParseJson(message[1..]).value) else Nothing)
    ensures !(message == "2" || message == "3" || StartsWith(message, "42") || StartsWith(message, "0{")) ==>
              r == Nothing
  {
    if message == "2" then Decoded(EnginePing, JNull)
    else if message == "3" then Decoded(EnginePong, JNull)
    else if StartsWith(message, "42") then
      var data := ParseJson(message[2..]);
      if IsPair(data) then Decoded(data.value.items[0], data.value.items[1]) else Nothing
    else if StartsWith(message, "0{") then
      var data := ParseJson(message[1..]);
      if data.Some? then Decoded(EngineOpen, data.value) else Nothing
    else Nothing
  }

  // ---------------------------------------------------------------------------
  // The decoder as written

  /** What `event_name, payload = value` does with a decoded JSON value. */
  datatype Unpacked = Pair(first: Json, second: Json) | WrongCount | NotIterable

  /**
   * Python's two-target unpacking: it iterates the value, so a list gives its
   * elements, a dict its keys and a string its characters; a length other
   * than two raises ValueError, and None, a bool or a number raise TypeError.
   */
  function Unpack2(v: Json): (r: Unpacked)
    ensures r.NotIterable? <==> v.JNull? || v.JBool? || v.JNum?
    ensures r.Pair? <==> (v.JArr? && |v.items| == 2) || (v.JObj? && |Keys(v.members)| == 2) || (v.JStr? && |v.s| == 2)
    ensures v.JArr? && r.Pair? ==> [r.first, r.second] == v.items
  {
    match v
    case JArr(items) => if |items| == 2 then Pair(items[0], items[1]) else WrongCount
    case JObj(ms) =>
      var ks := Keys(ms);
      if |ks| == 2 then Pair(JStr(ks[0]), JStr(ks[1])) else WrongCount
    case JStr(s) => if |s| == 2 then Pair(JStr([s[0]]), JStr([s[1]])) else WrongCount
    case _ => NotIterable
  }

  /** A call either returns its pair or lets a TypeError escape. */
  datatype Outcome = Returned(pair: Decoded) | RaisedTypeError

  /**
   * `parse_socketio_message` as written: the "42" branch catches only
   * JSONDecodeError and ValueError around the unpacking.
   */
  function DecodeAsWritten(message: string): (r: Outcome)
    ensures r.RaisedTypeError? <==>
              StartsWith(message, "42") && ParseJson(message[2..]).Some? && Unpack2(ParseJson(message[2..]).value).NotIterable?
  {
    if message == "2" then Returned(Decoded(EnginePing, JNull))
    else if message == "3" then Returned(Decoded(EnginePong, JNull))
    else if StartsWith(message, "42") then
      match ParseJson(message[2..])
      case None => Returned(Nothing)
      case Some(v) =>
        match Unpack2(v)
        case Pair(a, b) => Returned(Decoded(a, b))
        case WrongCount => Returned(Nothing)
        case NotIterable => RaisedTypeError
    else if StartsWith(message, "0{") then
      match ParseJson(message[1..])
      case None => Returned(Nothing)
      case Some(v) => Returned(Decoded(EngineOpen, v))
    else Returned(Nothing)
  }

  /**
   * The two decoders differ only on "42" frames whose JSON is not a list:
   * everywhere else the code as written returns what `Decode` returns.
   */
  lemma AsWrittenAgrees(message: string)
    requires !(StartsWith(message, "42") && ParseJson(message[2..]).Some? && !ParseJson(message[2..]).value.JArr?)
    ensures DecodeAsWritten(message) == Returned(Decode(message))
  {
  }

  lemma EventText(data: string)
    ensures StartsWith("42" + data, "42") && ("42" + data)[2..] == data
    ensures "42" + data != "2" && "42" + data != "3"
  {
  }

  /** Both decoders on a "42" frame whose JSON text reads as `v`. */
  lemma EventDecode(data: string, v: Json)
    requires ParseJson(data) == Some(v)
    ensures Decode("42" + data) == (if v.JArr? && |v.items| == 2 then Decoded(v.items[0], v.items[1]) else Nothing)
    ensures DecodeAsWritten("42" + data) ==
              (if Unpack2(v).NotIterable? then RaisedTypeError
               else if Unpack2(v).Pair? then Returned(Decoded(Unpack2(v).first, Unpack2(v).second))
               else Returned(Nothing))
  {
    EventText(data);
  }

  /** Finding: a "42" frame carrying JSON `null` escapes as a TypeError. */
  lemma NullEventRaises()
    ensures DecodeAsWritten("42null") == RaisedTypeError
    ensures Decode("42null") == Nothing
  {
    var m := "42null";
    assert m == "42" + Serialize(JNull);
    RoundTrip(JNull);
    EventDecode(Serialize(JNull), JNull);
  }

  /** Finding: a "42" frame carrying a two-character string is taken for an event. */
  lemma StringEventUnpacks()
    ensures DecodeAsWritten("42\"ab\"") == Returned(Decoded(JStr("a"), JStr("b")))
    ensures Decode("42\"ab\"") == Nothing
  {
    var m := "42\"ab\"";
    assert m == "42" + Serialize(JStr("ab")) by {
      assert Escape("b") == "b";
      assert Escape("ab") == "ab";
    }
    RoundTrip(JStr("ab"));
    EventDecode(Serialize(JStr("ab")), JStr("ab"));
    assert Unpack2(JStr("ab")) == Pair(JStr("a"), JStr("b"));
  }

  lemma TwoKeys(k1: string, k2: string, v1: Json, v2: Json)
    requires k1 != k2
    ensures Keys([Member(k1, v1), Member(k2, v2)]) == [k1, k2]
  {
    var ms := [Member(k1, v1), Member(k2, v2)];
    assert ms[..1] == [Member(k1, v1)];
    assert ms[..1][..0] == [];
    assert Keys(ms[..1]) == [k1];
  }

  /** Finding: a "42" frame carrying a two-key object is taken for an event named by its first key. */
  lemma ObjectEventUnpacks(k1: string, k2: string, v1: Json, v2: Json)
    requires k1 != k2 && WellFormed(v1) && WellFormed(v2)
    ensures DecodeAsWritten("42" + Serialize(JObj([Member(k1, v1), Member(k2, v2)])))
              == Returned(Decoded(JStr(k1), JStr(k2)))
    ensures Decode("42" + Serialize(JObj([Member(k1, v1), Member(k2, v2)]))) == Nothing
  {
    var v := JObj([Member(k1, v1), Member(k2, v2)]);
    RoundTrip(v);
    EventDecode(Serialize(v), v);
    TwoKeys(k1, k2, v1, v2);
  }

  // ---------------------------------------------------------------------------
  // Encoding

  /** The text `send_socketio_message` sends: "42" and `json.dumps([name, payload])`. */
  function Encode(name: string, payload: Json): (frame: string)
    ensures |frame| >= 4 && frame[..3] == "42["
  {
    "42" + Serialize(JArr([JStr(name), payload]))
  }

  /** Decoding an encoded event gives back its name and payload. */
  lemma EncodeDecode(name: string, payload: Json)
    requires WellFormed(payload)
    ensures Decode(Encode(name, payload)) == Decoded(JStr(name), payload)
    ensures DecodeAsWritten(Encode(name, payload)) == Returned(Decoded(JStr(name), payload))
  {
    var v := JArr([JStr(name), payload]);
    assert WellFormed(v);
    RoundTrip(v);
    EventDecode(Serialize(v), v);
  }

  lemma OpenText(text: string)
    requires text != [] && text[0] == '{'
    ensures StartsWith("0" + text, "0{") && ("0" + text)[1..] == text
    ensures !StartsWith("0" + text, "42") && "0" + text != "2" && "0" + text != "3"
  {
  }

  /** An Engine.IO open packet: '0' and a JSON object. */
  lemma OpenDecode(ms: seq<Member>)
    requires WellFormed(JObj(ms))
    ensures Decode("0" + Serialize(JObj(ms))) == Decoded(EngineOpen, JObj(ms))
  {
    var text := Serialize(JObj(ms));
    RoundTrip(JObj(ms));
    OpenText(text);
  }

  /** Frames from the test suite that are not events. */
  lemma DecodeRejects()
    ensures Decode("foobar") == Nothing
    ensures Decode("42notjson") == Nothing
  {
    var data := "notjson";
    assert SkipWs(data) == data;
    assert data[..4] != "null" by { assert data[1] == 'o'; }
    assert ParseJson(data) == None;
    EventText(data);
    assert "42notjson" == "42" + data;
    assert !StartsWith("foobar", "42") by { assert "foobar"[0] == 'f'; }
    assert !StartsWith("foobar", "0{") by { assert "foobar"[0] == 'f'; }
  }

  /**
   * `send_socketio_message`: the frames it hands to the websocket.  Nothing
   * is sent when the link is missing or closed; a failure inside `send` is
   * logged and also sends nothing.
   */
  function SendEvent(linkOpen: bool, name: string, payload: Json): (out: seq<string>)
    ensures |out| <= 1 && (out == [] <==> !linkOpen)
    ensures forall i | 0 <= i < |out| :: WellFormed(payload) ==> Decode(out[i]) == Decoded(JStr(name), payload)
  {
    if !linkOpen then []
    else if WellFormed(payload) then EncodeDecode(name, payload); [Encode(name, payload)]
    else [Encode(name, payload)]
  }
}

=== FILE: trading.dfy ===
/**
 * The trading loop of rugsbot/bot.py: the bot's global state, the handler of
 * game-state updates and the per-frame dispatch of `connect_and_listen`.
 *
 * The clock is a parameter (`now`, one reading per received frame), the
 * websocket is reduced to whether it is still open, and what the bot writes
 * to it is appended to `sent`.  An exception that the loop's
 * `except Exception` swallows leaves the state as it was at the raise, so a
 * handler here simply stops where Python would raise.
 */
module Trading {
  import opened Wrappers
  import opened Json
  import opened SocketIO

  /** The settings of config.py the loop reads. */
  datatype Config = Config(
    stake: string,          // STAKE_AMOUNT, as the text json.dumps writes for it
    profitTarget: real,     // PER_TRADE_PROFIT_MULTIPLIER_TARGET
    sessionTarget: real,    // SESSION_PROFIT_TARGET_SOL
    buyWindow: real,        // MAX_BUY_WINDOW_SECONDS
    priceCeiling: real,     // DYNAMIC_BUY_PRICE_CEILING
    pingInterval: real,     // PING_INTERVAL_SECONDS
    placeBet: string,
    sellBet: string,
    gameStateUpdate: string,
    betPlaced: string,
    betSold: string,
    betLost: string)

  /** The values config.py ships with. */
  const Defaults := Config("0.01", 1.03, 0.05, 5.0, 1.5, 25.0,
                           "placeBet", "sellBet", "gameStateUpdate", "betPlaced", "betSold", "betLost")

  function Stake(cfg: Config): real { NumValue(cfg.stake) }

  /** The payload of a placeBet request: the stake, no automatic sell or stop loss. */
  function BetPayload(cfg: Config): Json {
    JObj([Member("amount", JNum(cfg.stake)), Member("autoSellMultiplier", JNull), Member("stopLossMultiplier", JNull)])
  }

  /** Python's `0.0`, the default of a missing price or payout. */
  const FloatZero := JNum("0.0")

  /** The payload of a sellBet request: the whole position. */
  const SellPayload := JObj([Member("percentage", JNum("100"))])

  /** `payload.get(key, default)` on a dict. */
  function Get(payload: Json, key: string, default: Json): Json
    requires payload.JObj?
  {
    Lookup(payload.members, key).GetOr(default)
  }

  /**
   * The module globals of bot.py, and the `round_started_logged` attribute
   * of `handle_game_state_update`.  `entryPrice` and `betId` hold whatever
   * the server sent, hence Python values.
   */
  datatype BotState = BotState(
    sessionProfit: real,
    betActive: bool,
    entryPrice: Json,
    betId: Json,
    gameStartTime: real,
    lastPingTime: real,
    roundStarted: bool,
    sent: seq<string>)

  /** The state once the websocket is connected at time `now`. */
  function Initial(now: real): BotState {
    BotState(0.0, false, FloatZero, JNull, 0.0, now, false, [])
  }

  /** What the bot holds between two bets: entry price 0 and no bet id. */
  predicate Idle(s: BotState) {
    !s.betActive ==> NumericValue(s.entryPrice) == Some(0.0) && s.betId == JNull
  }

  datatype Step = Step(state: BotState, stop: bool)

  // ---------------------------------------------------------------------------
  // gameStateUpdate

  /** The round flag: set with the start time on the first active update, cleared by an inactive one. */
  function MarkRound(s: BotState, active: bool, now: real): BotState {
    if active && !s.roundStarted then s.(gameStartTime := now, roundStarted := true)
    else if !active then s.(roundStarted := false)
    else s
  }

  /** The buy rule: still inside the buy window and at or under the price ceiling. */
  predicate Buys(cfg: Config, s: BotState, price: real, now: real) {
    now - s.gameStartTime <= cfg.buyWindow && price <= cfg.priceCeiling
  }

  /**
   * The sell rule: a positive entry price and a multiplier at the target.
   * An entry price that is not a number makes `> 0` raise TypeError, which
   * sells nothing.
   */
  predicate Sells(cfg: Config, entry: Json, price: real) {
    var e := NumericValue(entry);
    e.Some? && e.value > 0.0 && price / e.value >= cfg.profitTarget
  }

  /**
   * `handle_game_state_update`.  A payload that is not a dict, or a price
   * that the log line cannot format as a number, raises before anything
   * changes.
   */
  function GameStateUpdate(cfg: Config, s: BotState, payload: Json, now: real, linkOpen: bool): BotState {
    if !payload.JObj? then s
    else
      var price := NumericValue(Get(payload, "price", FloatZero));
      if price.None? then s
      else
        var active := Truthy(Get(payload, "active", JBool(false)));
        var s1 := MarkRound(s, active, now);
        var buy := if active && !s1.betActive && Buys(cfg, s1, price.value, now)
                   then SendEvent(linkOpen, cfg.placeBet, BetPayload(cfg)) else [];
        var sell := if active && s1.betActive && Sells(cfg, s1.entryPrice, price.value)
                    then SendEvent(linkOpen, cfg.sellBet, SellPayload) else [];
        s1.(sent := s1.sent + buy + sell)
  }

  // ---------------------------------------------------------------------------
  // betPlaced, betSold, betLost

  /**
   * betPlaced: the bet is active from the first statement on; the entry
   * price is `entryPrice`, else `price`, else the old one, and is kept when
   * falsy; the id is replaced when the payload carries one.
   */
  function BetPlaced(s: BotState, payload: Json): BotState {
    var s1 := s.(betActive := true);
    if !payload.JObj? then s1
    else
      var entry := Get(payload, "entryPrice", Get(payload, "price", s.entryPrice));
      s1.(entryPrice := if Truthy(entry) then entry else s.entryPrice,
          betId := Get(payload, "id", s.betId))
  }

  /** The bet is over: its profit is booked and the loop stops at the session target. */
  function Settle(cfg: Config, s: BotState, profit: real): Step {
    var session := s.sessionProfit + profit;
    Step(s.(sessionProfit := session, betActive := false, entryPrice := JNum("0"), betId := JNull),
         session >= cfg.sessionTarget)
  }

  /** betSold: the payout less the stake is the profit; a payout that is not a number raises first. */
  function BetSold(cfg: Config, s: BotState, payload: Json): Step {
    if !payload.JObj? then Step(s, false)
    else
      var payout := NumericValue(Get(payload, "payout", FloatZero));
      if payout.None? then Step(s, false) else Settle(cfg, s, payout.value - Stake(cfg))
  }

  /** betLost: the amount (by default the stake) is lost. */
  function BetLost(cfg: Config, s: BotState, payload: Json): Step {
    if !payload.JObj? then Step(s, false)
    else
      var amount := NumericValue(Get(payload, "amount", JNum(cfg.stake)));
      if amount.None? then Step(s, false) else Settle(cfg, s, -amount.value)
  }

  // ---------------------------------------------------------------------------
  // The receive loop

  /** What the next `recv` brings: a frame, a timeout, or the end of the connection. */
  datatype Input =
    | Frame(message: string, now: real, linkOpen: bool)
    | RecvTimeout(now: real, linkOpen: bool)
    | Closed

  /**
   * One received frame, decoded as `parse_socketio_message` is written: a
   * TypeError it lets escape is swallowed by the loop and changes nothing,
   * and a pair it returns, however it was unpacked, is dispatched.
   * Replying to a ping on a closed link raises ConnectionClosed, which ends
   * the loop.
   */
  function OnFrame(cfg: Config, s: BotState, message: string, now: real, linkOpen: bool): Step {
    match DecodeAsWritten(message)
    case RaisedTypeError => Step(s, false)
    case Returned(d) => Dispatch(cfg, s, d, now, linkOpen)
  }

  /** The branches of the loop body on a decoded frame. */
  function Dispatch(cfg: Config, s: BotState, d: Decoded, now: real, linkOpen: bool): Step {
    if d.name == EnginePing then
      if linkOpen then Step(s.(sent := s.sent + ["3"], lastPingTime := now), false) else Step(s, true)
    else if d.name == EnginePong then Step(s.(lastPingTime := now), false)
    else if d.name == EngineOpen || !Truthy(d.name) then Step(s, false)
    else if d.name == JStr(cfg.gameStateUpdate) then Step(GameStateUpdate(cfg, s, d.payload, now, linkOpen), false)
    else if d.name == JStr(cfg.betPlaced) then Step(BetPlaced(s, d.payload), false)
    else if d.name == JStr(cfg.betSold) then BetSold(cfg, s, d.payload)
    else if d.name == JStr(cfg.betLost) then BetLost(cfg, s, d.payload)
    else Step(s, false)
  }

  /**
   * A receive timeout: a client ping when none went out for the ping
   * interval.  The send sits in an exception handler, so on a closed link
   * its ConnectionClosed leaves the loop.
   */
  function OnRecvTimeout(cfg: Config, s: BotState, now: real, linkOpen: bool): Step {
    if now - s.lastPingTime > cfg.pingInterval then
      if linkOpen then Step(s.(sent := s.sent + ["2"], lastPingTime := now), false) else Step(s, true)
    else Step(s, false)
  }

  function Apply(cfg: Config, s: BotState, input: Input): Step {
    match input
    case Frame(message, now, linkOpen) => OnFrame(cfg, s, message, now, linkOpen)
    case RecvTimeout(now, linkOpen) => OnRecvTimeout(cfg, s, now, linkOpen)
    case Closed => Step(s, true)
  }

  /** The loop over a sequence of inputs, up to the first that stops it. */
  function Run(cfg: Config, s: BotState, inputs: seq<Input>): Step
    decreases |inputs|
  {
    if inputs == [] then Step(s, false)
    else
      var r := Apply(cfg, s, inputs[0]);
      if r.stop then r else Run(cfg, r.state, inputs[1..])
  }

  // ---------------------------------------------------------------------------
  // The bot as an object

  class Bot {
    const cfg: Config
    var sessionProfit: real
    var betActive: bool
    var entryPrice: Json
    var betId: Json
    var gameStartTime: real
    var lastPingTime: real
    var roundStarted: bool
    var sent: seq<string>

    function State(): BotState
      reads this
    {
      BotState(sessionProfit, betActive, entryPrice, betId, gameStartTime, lastPingTime, roundStarted, sent)
    }

    /** Connected at `now`. */
    constructor(cfg: Config, now: real)
      ensures this.cfg == cfg && State() == Initial(now)
    {
      this.cfg := cfg;
      sessionProfit := 0.0;
      betActive := false;
      entryPrice := FloatZero;
      betId := JNull;
      gameStartTime := 0.0;
      lastPingTime := now;
      roundStarted := false;
      sent := [];
    }

    method HandleGameStateUpdate(payload: Json, now: real, linkOpen: bool)
      modifies this
      ensures State() == GameStateUpdate(cfg, old(State()), payload, now, linkOpen)
    {
      if !payload.JObj? {
        return;
      }
      var price := NumericValue(Get(payload, "price", FloatZero));
      var active := Truthy(Get(payload, "active", JBool(false)));
      if price.None? {
        return;
      }
      ghost var s0 := State();
      if active && !roundStarted {
        gameStartTime := now;
        roundStarted := true;
      } else if !active {
        roundStarted := false;
      }
      ghost var s1 := State();
      assert s1 == MarkRound(s0, active, now);
      if active && !betActive {
        var elapsed := now - gameStartTime;
        if elapsed <= cfg.buyWindow && price.value <= cfg.priceCeiling {
          sent := sent + SendEvent(linkOpen, cfg.placeBet, BetPayload(cfg));
        }
      }
      ghost var s2 := State();
      assert s2 == s1.(sent := s1.sent + if active && !s1.betActive && Buys(cfg, s1, price.value, now)
                                        then SendEvent(linkOpen, cfg.placeBet, BetPayload(cfg)) else []);
      if active && betActive {
        var entry := NumericValue(entryPrice);
        if entry.Some? && entry.value > 0.0 {
          var multiplier := price.value / entry.value;
          if multiplier >= cfg.profitTarget {
            sent := sent + SendEvent(linkOpen, cfg.sellBet, SellPayload);
          }
        }
      }
      assert State() == s2.(sent := s2.sent + if active && s1.betActive && Sells(cfg, s1.entryPrice, price.value)
                                              then SendEvent(linkOpen, cfg.sellBet, SellPayload) else []);
    }

    method OnBetPlaced(payload: Json)
      modifies this
      ensures State() == BetPlaced(old(State()), payload)
    {
      betActive := true;
      if !payload.JObj? {
        return;
      }
      var entry := Get(payload, "entryPrice", Get(payload, "price", entryPrice));
      if Truthy(entry) {
        entryPrice := entry;
      }
      betId := Get(payload, "id", betId);
    }

    method OnBetSold(payload: Json) returns (stop: bool)
      modifies this
      ensures Step(State(), stop) == BetSold(cfg, old(State()), payload)
    {
      stop := false;
      if !payload.JObj? {
        return;
      }
      var payout := NumericValue(Get(payload, "payout", FloatZero));
      if payout.None? {
        return;
      }
      ghost var s0 := State();
      var profit := payout.value - Stake(cfg);
      assert BetSold(cfg, s0, payload) == Settle(cfg, s0, profit);
      sessionProfit := sessionProfit + profit;
      betActive := false;
      entryPrice := JNum("0");
      betId := JNull;
      stop := sessionProfit >= cfg.sessionTarget;
      assert Step(State(), stop) == Settle(cfg, s0, profit);
    }

    method OnBetLost(payload: Json) returns (stop: bool)
      modifies this
      ensures Step(State(), stop) == BetLost(cfg, old(State()), payload)
    {
      stop := false;
      if !payload.JObj? {
        return;
      }
      var amount := NumericValue(Get(payload, "amount", JNum(cfg.stake)));
      if amount.None? {
        return;
      }
      ghost var s0 := State();
      assert BetLost(cfg, s0, payload) == Settle(cfg, s0, -amount.value);
      sessionProfit := sessionProfit - amount.value;
      betActive := false;
      entryPrice := JNum("0");
      betId := JNull;
      stop := sessionProfit >= cfg.sessionTarget;
      assert Step(State(), stop) == Settle(cfg, s0, -amount.value);
    }

    method OnMessage(message: string, now: real, linkOpen: bool) returns (stop: bool)
      modifies this
      ensures Step(State(), stop) == OnFrame(cfg, old(State()), message, now, linkOpen)
    {
      stop := false;
      var decoded := DecodeAsWritten(message);
      if decoded.RaisedTypeError? {
        return;
      }
      var d := decoded.pair;
      if d.name == EnginePing {
        if !linkOpen {
          return true;
        }
        sent := sent + ["3"];
        lastPingTime := now;
        return;
      } else if d.name == EnginePong {
        lastPingTime := now;
        return;
      } else if d.name == EngineOpen {
        return;
      }
      if !Truthy(d.name) {
        return;
      }
      if d.name == JStr(cfg.gameStateUpdate) {
        HandleGameStateUpdate(d.payload, now, linkOpen);
      } else if d.name == JStr(cfg.betPlaced) {
        OnBetPlaced(d.payload);
      } else if d.name == JStr(cfg.betSold) {
        stop := OnBetSold(d.payload);
      } else if d.name == JStr(cfg.betLost) {
        stop := OnBetLost(d.payload);
      }
    }

    method OnTimeout(now: real, linkOpen: bool) returns (stop: bool)
      modifies this
      ensures Step(State(), stop) == OnRecvTimeout(cfg, old(State()), now, linkOpen)
    {
      stop := false;
      if now - lastPingTime > cfg.pingInterval {
        if !linkOpen {
          return true;
        }
        sent := sent + ["2"];
        lastPingTime := now;
      }
    }

    /** The `while True` loop over the inputs, until one of them stops it. */
    method Listen(inputs: seq<Input>) returns (stop: bool)
      modifies this
      ensures Step(State(), stop) == Run(cfg, old(State()), inputs)
    {
      var i := 0;
      stop := false;
      while i < |inputs| && !stop
        invariant 0 <= i <= |inputs|
        invariant stop ==> Step(State(), stop) == Run(cfg, old(State()), inputs)
        invariant !stop ==> Run(cfg, State(), inputs[i..]) == Run(cfg, old(State()), inputs)
      {
        assert inputs[i..][1..] == inputs[i + 1..];
        match inputs[i] {
          case Frame(message, now, linkOpen) =>
            stop := OnMessage(message, now, linkOpen);
          case RecvTimeout(now, linkOpen) =>
            stop := OnTimeout(now, linkOpen);
          case Closed =>
            stop := true;
        }
        i := i + 1;
      }
      if !stop {
        assert inputs[i..] == [];
      }
    }
  }

  // ---------------------------------------------------------------------------
  // Properties

  lemma ZeroLexemes()
    ensures NumValue("0") == 0.0 && NumValue("0.0") == 0.0
  {
    assert Significand("", 0, 0, false) == 0.0;
    assert Significand("", 0, 1, true) == Scaled(0.0, -1) == 0.0;
  }

  /** The shipped stake is the lexeme "0.01" of the number 0.01. */
  lemma DefaultStake()
    ensures ValidNumLit(Defaults.stake) && Stake(Defaults) == 0.01
  {
    var t := "0.01";
    assert Significand(t[4..], 1, 2, true) == Scaled(1.0, -2) == 0.01;
    assert t[1..][1..][1..][1..] == t[4..];
    assert DigitsLen(t) == 1 by { assert DigitsLen(t[1..]) == 0; }
    assert NumberLen(t) == 4 by {
      assert IntLen(t) == 1;
      assert t[1..] == ".01";
      assert FracLen(".01") == 3 by { assert DigitsLen("01") == 2; }
    }
  }

  /** The connected bot holds no bet. */
  lemma InitialIdle(now: real)
    ensures Idle(Initial(now)) && !Initial(now).betActive
  {
    ZeroLexemes();
  }

  /** Every frame the bot writes: a pong, a ping, or one of its two requests. */
  predicate Allowed(cfg: Config, frame: string) {
    frame == "2" || frame == "3" || frame == Encode(cfg.placeBet, BetPayload(cfg)) || frame == Encode(cfg.sellBet, SellPayload)
  }

  /** `after` is `before` followed by allowed frames only. */
  predicate SentSince(cfg: Config, before: seq<string>, after: seq<string>) {
    before <= after && forall i | |before| <= i < |after| :: Allowed(cfg, after[i])
  }

  /**
   * A game-state update changes only the round flag, its start time and
   * the sent frames, and those by at most one request: the buy rule needs
   * no bet active, the sell rule an active one.
   */
  lemma GameStateUpdateFrame(cfg: Config, s: BotState, payload: Json, now: real, linkOpen: bool)
    ensures var r := GameStateUpdate(cfg, s, payload, now, linkOpen);
            r.(sent := s.sent, roundStarted := s.roundStarted, gameStartTime := s.gameStartTime) == s
            && SentSince(cfg, s.sent, r.sent) && |r.sent| <= |s.sent| + 1
            && (|r.sent| == |s.sent| + 1 ==>
                  r.sent[|s.sent|] == Encode(cfg.placeBet, BetPayload(cfg)) || r.sent[|s.sent|] == Encode(cfg.sellBet, SellPayload))
  {
  }

  /** A payload that is not a dict, or a price that is not a number, changes nothing. */
  lemma GameStateUpdateRejects(cfg: Config, s: BotState, payload: Json, now: real, linkOpen: bool)
    requires !payload.JObj? || NumericValue(Get(payload, "price", FloatZero)).None?
    ensures GameStateUpdate(cfg, s, payload, now, linkOpen) == s
  {
  }

  /**
   * The round flag follows the `active` field, and the round's start time
   * moves to `now` exactly when an active update finds the flag clear.
   */
  lemma RoundRule(cfg: Config, s: BotState, payload: Json, now: real, linkOpen: bool)
    requires payload.JObj? && NumericValue(Get(payload, "price", FloatZero)).Some?
    ensures var r := GameStateUpdate(cfg, s, payload, now, linkOpen);
            var active := Truthy(Get(payload, "active", JBool(false)));
            r.roundStarted == active
            && (r.gameStartTime != s.gameStartTime ==> active && !s.roundStarted && r.gameStartTime == now)
            && (active && !s.roundStarted ==> r.gameStartTime == now)
  {
  }

  /**
   * With no bet active, an update sends the placeBet request exactly when
   * the round is active, the time since the round started is within the buy
   * window and the price is at most the ceiling; the bet stays inactive.
   */
  lemma BuyRule(cfg: Config, s: BotState, payload: Json, now: real, linkOpen: bool, price: real)
    requires payload.JObj? && NumericValue(Get(payload, "price", FloatZero)) == Some(price)
    requires !s.betActive
    ensures var r := GameStateUpdate(cfg, s, payload, now, linkOpen);
            var active := Truthy(Get(payload, "active", JBool(false)));
            var start := if s.roundStarted then s.gameStartTime else now;
            var buys := active && now - start <= cfg.buyWindow && price <= cfg.priceCeiling;
            !r.betActive
            && (buys ==> r.sent == s.sent + SendEvent(linkOpen, cfg.placeBet, BetPayload(cfg)))
            && (!buys ==> r.sent == s.sent)
  {
  }

  /**
   * With a bet active, an update sends the sellBet request exactly when the
   * round is active, the entry price is a positive number and the price
   * has reached the target multiple of it.
   */
  lemma SellRule(cfg: Config, s: BotState, payload: Json, now: real, linkOpen: bool, price: real)
    requires payload.JObj? && NumericValue(Get(payload, "price", FloatZero)) == Some(price)
    requires s.betActive
    ensures var r := GameStateUpdate(cfg, s, payload, now, linkOpen);
            var active := Truthy(Get(payload, "active", JBool(false)));
            var entry := NumericValue(s.entryPrice);
            var sells := active && entry.Some? && entry.value > 0.0 && price / entry.value >= cfg.profitTarget;
            r.betActive
            && (sells ==> r.sent == s.sent + SendEvent(linkOpen, cfg.sellBet, SellPayload))
            && (!sells ==> r.sent == s.sent)
  {
  }

  /**
   * Sending placeBet does not mark the bet active, so a second update inside
   * the buy window sends it again before the server confirms the first.
   */
  lemma RepeatedPlaceBet(cfg: Config, s: BotState, payload: Json, now1: real, now2: real, price: real)
    requires payload.JObj? && NumericValue(Get(payload, "price", FloatZero)) == Some(price)
    requires Truthy(Get(payload, "active", JBool(false))) && price <= cfg.priceCeiling
    requires !s.betActive && now1 <= now2
    requires now2 - (if s.roundStarted then s.gameStartTime else now1) <= cfg.buyWindow
    ensures var frame := Encode(cfg.placeBet, BetPayload(cfg));
            var s1 := GameStateUpdate(cfg, s, payload, now1, true);
            GameStateUpdate(cfg, s1, payload, now2, true).sent == s.sent + [frame, frame]
  {
    var frame := Encode(cfg.placeBet, BetPayload(cfg));
    BuyRule(cfg, s, payload, now1, true, price);
    var s1 := GameStateUpdate(cfg, s, payload, now1, true);
    RoundRule(cfg, s, payload, now1, true);
    BuyRule(cfg, s1, payload, now2, true, price);
    assert s.sent + [frame] + [frame] == s.sent + [frame, frame];
  }

  /**
   * betPlaced marks the bet active even when the payload is not a dict, and
   * then changes nothing else.  From a dict, a truthy `entryPrice` becomes
   * the entry price; without `entryPrice` a truthy `price` does; a falsy
   * one, or neither key, keeps the old entry price.  The id follows `id`
   * when the dict has one.
   */
  lemma BetPlacedRule(s: BotState, payload: Json)
    ensures var r := BetPlaced(s, payload);
            r.betActive
            && r.(betActive := s.betActive, entryPrice := s.entryPrice, betId := s.betId) == s
            && (!payload.JObj? ==> r == s.(betActive := true))
            && (payload.JObj? ==>
                  var entry := Lookup(payload.members, "entryPrice");
                  var price := Lookup(payload.members, "price");
                  (entry.Some? && Truthy(entry.value) ==> r.entryPrice == entry.value)
                  && (entry.Some? && !Truthy(entry.value) ==> r.entryPrice == s.entryPrice)
                  && (entry.None? && price.Some? && Truthy(price.value) ==> r.entryPrice == price.value)
                  && (entry.None? && price.Some? && !Truthy(price.value) ==> r.entryPrice == s.entryPrice)
                  && (entry.None? && price.None? ==> r.entryPrice == s.entryPrice)
                  && (Lookup(payload.members, "id").Some? ==> r.betId == Lookup(payload.members, "id").value)
                  && (Lookup(payload.members, "id").None? ==> r.betId == s.betId))
  {
  }

  /**
   * betSold books the payout less the stake, clears the bet and stops the
   * loop exactly when the session profit reaches its target; a payload
   * without a numeric payout changes nothing.
   */
  lemma BetSoldRule(cfg: Config, s: BotState, payload: Json)
    ensures var r := BetSold(cfg, s, payload);
            if payload.JObj? && NumericValue(Get(payload, "payout", FloatZero)).Some? then
              var payout := NumericValue(Get(payload, "payout", FloatZero)).value;
              r.state.sessionProfit == s.sessionProfit + payout - Stake(cfg)
              && !r.state.betActive && Idle(r.state)
              && (r.stop <==> r.state.sessionProfit >= cfg.sessionTarget)
              && r.state.sent == s.sent
            else r == Step(s, false)
  {
    ZeroLexemes();
  }

  /**
   * betLost subtracts the amount, the stake when the payload has none,
   * clears the bet and applies the same stop rule.
   */
  lemma BetLostRule(cfg: Config, s: BotState, payload: Json)
    ensures var r := BetLost(cfg, s, payload);
            if payload.JObj? && NumericValue(Get(payload, "amount", JNum(cfg.stake))).Some? then
              var amount := NumericValue(Get(payload, "amount", JNum(cfg.stake))).value;
              r.state.sessionProfit == s.sessionProfit - amount
              && (Lookup(payload.members, "amount").None? ==> amount == Stake(cfg))
              && !r.state.betActive && Idle(r.state)
              && (r.stop <==> r.state.sessionProfit >= cfg.sessionTarget)
              && r.state.sent == s.sent
            else r == Step(s, false)
  {
    ZeroLexemes();
  }

  /** A ping is answered with a pong; a pong only records the time. */
  lemma EngineFrames(cfg: Config, s: BotState, now: real)
    ensures OnFrame(cfg, s, "2", now, true) == Step(s.(sent := s.sent + ["3"], lastPingTime := now), false)
    ensures OnFrame(cfg, s, "2", now, false).stop
    ensures OnFrame(cfg, s, "3", now, true) == Step(s.(lastPingTime := now), false)
  {
  }

  /** The event name a frame carries as the loop sees it; None when decoding raises. */
  function NameOf(message: string): Option<Json> {
    match DecodeAsWritten(message)
    case RaisedTypeError => None
    case Returned(d) => Some(d.name)
  }

  /** The names the loop acts on. */
  predicate Handled(cfg: Config, name: Json) {
    name == EnginePing || name == EnginePong || name == JStr(cfg.gameStateUpdate)
    || name == JStr(cfg.betPlaced) || name == JStr(cfg.betSold) || name == JStr(cfg.betLost)
  }

  /**
   * A frame that raises while decoding, or whose name is no event the bot
   * handles, changes nothing.
   */
  lemma UnhandledFrame(cfg: Config, s: BotState, message: string, now: real, linkOpen: bool)
    requires NameOf(message).None? || !Handled(cfg, NameOf(message).value)
    ensures OnFrame(cfg, s, message, now, linkOpen) == Step(s, false)
  {
  }

  /**
   * A "42" frame carrying an object with two keys, the first the betPlaced
   * event name, is unpacked into (betPlaced, second key): the bet becomes
   * active, and the `.get` on the string payload raises before anything
   * else changes.  The corrected decoder would ignore the frame.
   */
  lemma ObjectFrameActivatesBet(cfg: Config, s: BotState, other: string, v1: Json, v2: Json, now: real, linkOpen: bool)
    requires cfg.betPlaced != other && cfg.betPlaced != [] && WellFormed(v1) && WellFormed(v2)
    requires JStr(cfg.betPlaced) != EnginePing && JStr(cfg.betPlaced) != EnginePong && JStr(cfg.betPlaced) != EngineOpen
    requires cfg.betPlaced != cfg.gameStateUpdate
    ensures var m := "42" + Serialize(JObj([Member(cfg.betPlaced, v1), Member(other, v2)]));
            OnFrame(cfg, s, m, now, linkOpen) == Step(s.(betActive := true), false)
            && Dispatch(cfg, s, Decode(m), now, linkOpen) == Step(s, false)
  {
    var m := "42" + Serialize(JObj([Member(cfg.betPlaced, v1), Member(other, v2)]));
    ObjectEventUnpacks(cfg.betPlaced, other, v1, v2);
    assert DecodeAsWritten(m) == Returned(Decoded(JStr(cfg.betPlaced), JStr(other)));
  }

  /** On a receive timeout a ping goes out exactly when none went out for the ping interval. */
  lemma TimeoutRule(cfg: Config, s: BotState, now: real)
    ensures var r := OnRecvTimeout(cfg, s, now, true);
            !r.stop
            && (now - s.lastPingTime > cfg.pingInterval ==> r.state == s.(sent := s.sent + ["2"], lastPingTime := now))
            && (now - s.lastPingTime <= cfg.pingInterval ==> r.state == s)
  {
  }

  /**
   * One decoded frame: the bot's frames only grow, by at most one allowed
   * frame; between bets it holds entry price 0 and no id; and it stops only
   * when a send finds the link closed or a settled bet brings the session
   * profit to its target.
   */
  lemma DispatchStep(cfg: Config, s: BotState, d: Decoded, now: real, linkOpen: bool)
    ensures var r := Dispatch(cfg, s, d, now, linkOpen);
            SentSince(cfg, s.sent, r.state.sent) && |r.state.sent| <= |s.sent| + 1
            && (Idle(s) ==> Idle(r.state))
            && (r.stop ==> !linkOpen || (!r.state.betActive && r.state.sessionProfit >= cfg.sessionTarget))
  {
    if d.name == EnginePing || d.name == EnginePong || d.name == EngineOpen || !Truthy(d.name) {
    } else if d.name == JStr(cfg.gameStateUpdate) {
      GameStateUpdateFrame(cfg, s, d.payload, now, linkOpen);
    } else if d.name == JStr(cfg.betSold) {
      BetSoldRule(cfg, s, d.payload);
    } else if d.name == JStr(cfg.betLost) {
      BetLostRule(cfg, s, d.payload);
    }
  }

  /** The same for any input; the end of the connection also stops the loop. */
  lemma ApplyStep(cfg: Config, s: BotState, input: Input)
    ensures var r := Apply(cfg, s, input);
            SentSince(cfg, s.sent, r.state.sent) && |r.state.sent| <= |s.sent| + 1
            && (Idle(s) ==> Idle(r.state))
            && (r.stop ==> input.Closed? || !input.linkOpen
                           || (!r.state.betActive && r.state.sessionProfit >= cfg.sessionTarget))
  {
    if input.Frame? && DecodeAsWritten(input.message).Returned? {
      DispatchStep(cfg, s, DecodeAsWritten(input.message).pair, input.now, input.linkOpen);
    }
  }

  /** Over any run the frames only grow, each new one allowed. */
  lemma {:induction false} RunSends(cfg: Config, s: BotState, inputs: seq<Input>)
    ensures var r := Run(cfg, s, inputs);
            SentSince(cfg, s.sent, r.state.sent) && |r.state.sent| <= |s.sent| + |inputs|
    decreases |inputs|
  {
    if inputs != [] {
      ApplyStep(cfg, s, inputs[0]);
      var r := Apply(cfg, s, inputs[0]);
      if !r.stop {
        RunSends(cfg, r.state, inputs[1..]);
      }
    }
  }

  /** Between bets the bot holds entry price 0 and no id, over any run. */
  lemma {:induction false} RunIdle(cfg: Config, s: BotState, inputs: seq<Input>)
    requires Idle(s)
    ensures Idle(Run(cfg, s, inputs).state)
    decreases |inputs|
  {
    if inputs != [] {
      ApplyStep(cfg, s, inputs[0]);
      var r := Apply(cfg, s, inputs[0]);
      if !r.stop {
        RunIdle(cfg, r.state, inputs[1..]);
      }
    }
  }

  /** `after` is `before` followed by pings, pongs and placeBet requests only. */
  predicate SentWhileIdle(cfg: Config, before: seq<string>, after: seq<string>) {
    before <= after
    && forall i | |before| <= i < |after| :: after[i] == "2" || after[i] == "3" || after[i] == Encode(cfg.placeBet, BetPayload(cfg))
  }

  /** The input is the server's confirmation of a bet. */
  predicate Confirms(cfg: Config, input: Input) {
    input.Frame? && DecodeAsWritten(input.message).Returned?
    && DecodeAsWritten(input.message).pair.name == JStr(cfg.betPlaced)
  }

  /**
   * Without a betPlaced confirmation the bet never becomes active, so the
   * bot never sends sellBet: every frame it writes is a ping, a pong or a
   * placeBet request.
   */
  lemma {:induction false} NoSellWithoutConfirmation(cfg: Config, s: BotState, inputs: seq<Input>)
    requires !s.betActive
    requires forall i | 0 <= i < |inputs| :: !Confirms(cfg, inputs[i])
    ensures var r := Run(cfg, s, inputs).state;
            !r.betActive && SentWhileIdle(cfg, s.sent, r.sent)
    decreases |inputs|
  {
    if inputs != [] {
      var r := Apply(cfg, s, inputs[0]);
      IdleStep(cfg, s, inputs[0]);
      if !r.stop {
        NoSellWithoutConfirmation(cfg, r.state, inputs[1..]);
      }
    }
  }

  lemma IdleStep(cfg: Config, s: BotState, input: Input)
    requires !s.betActive && !Confirms(cfg, input)
    ensures var r := Apply(cfg, s, input).state;
            !r.betActive && SentWhileIdle(cfg, s.sent, r.sent)
  {
    if input.Frame? && DecodeAsWritten(input.message).Returned? {
      IdleDispatch(cfg, s, DecodeAsWritten(input.message).pair, input.now, input.linkOpen);
    }
  }

  lemma IdleDispatch(cfg: Config, s: BotState, d: Decoded, now: real, linkOpen: bool)
    requires !s.betActive && d.name != JStr(cfg.betPlaced)
    ensures var r := Dispatch(cfg, s, d, now, linkOpen).state;
            !r.betActive && SentWhileIdle(cfg, s.sent, r.sent)
  {
    if d.name == EnginePing || d.name == EnginePong || d.name == EngineOpen || !Truthy(d.name) {
    } else if d.name == JStr(cfg.gameStateUpdate) {
      var p := d.payload;
      if p.JObj? && NumericValue(Get(p, "price", FloatZero)).Some? {
        BuyRule(cfg, s, p, now, linkOpen, NumericValue(Get(p, "price", FloatZero)).value);
      }
    }
  }
}

=== FILE: validators.dfy ===
/**
 * The configuration checks of rugsbot/validators.py.
 *
 * The configuration module is a record of Python values; a setting the
 * module may lack (`hasattr`, `getattr`) is an `Option`.  Messages are named
 * cases carrying the offending value instead of formatted strings.
 */
module Validators {
  import opened Wrappers

  /** The Python values a setting can hold. */
  datatype PyValue = PyNone | PyBool(b: bool) | PyInt(i: int) | PyFloat(f: real) | PyStr(s: string)

  /** `bool(v)`. */
  predicate Truthy(v: PyValue) {
    match v
    case PyNone => false
    case PyBool(b) => b
    case PyInt(i) => i != 0
    case PyFloat(f) => f != 0.0
    case PyStr(s) => s != []
  }

  /** `isinstance(v, (int, float))`; a bool is an int. */
  predicate IsNumber(v: PyValue) { v.PyBool? || v.PyInt? || v.PyFloat? }

  /** `isinstance(v, int)`. */
  predicate IsInt(v: PyValue) { v.PyBool? || v.PyInt? }

  function NumberValue(v: PyValue): real
    requires IsNumber(v)
  {
    match v
    case PyBool(b) => if b then 1.0 else 0.0
    case PyInt(i) => i as real
    case PyFloat(f) => f
  }

  /** The settings of config.py that the validators read. */
  datatype Settings = Settings(
    websocketUri: PyValue,
    userAgent: PyValue,
    origin: PyValue,
    stakeAmount: PyValue,
    profitTarget: PyValue,
    sessionTarget: PyValue,
    buyWindow: PyValue,
    priceCeiling: PyValue,
    pingInterval: PyValue,
    placeBet: PyValue,
    sellBet: PyValue,
    gameStateUpdate: PyValue,
    betPlaced: PyValue,
    betSold: PyValue,
    betLost: PyValue,
    logLevel: PyValue,
    dryRun: Option<PyValue>,
    maxDailyLoss: Option<PyValue>,
    maxConsecutiveLosses: Option<PyValue>)

  const Placeholder := "PASTE_YOUR_WEBSOCKET_URI_HERE"

  /** The values config.py ships with. */
  const Shipped := Settings(
    PyStr(Placeholder),
    PyStr("Mozilla/5.0 (Windows NT 10.0; Win64; x64) AppleWebKit/537.36 (KHTML, like Gecko) Chrome/90.0.4430.93 Safari/537.36"),
    PyStr("https://rugs.fun"),
    PyFloat(0.01), PyFloat(1.03), PyFloat(0.05), PyInt(5), PyFloat(1.5), PyInt(25),
    PyStr("placeBet"), PyStr("sellBet"), PyStr("gameStateUpdate"), PyStr("betPlaced"), PyStr("betSold"), PyStr("betLost"),
    PyStr("INFO"), None, None, None)

  // ---------------------------------------------------------------------------
  // The URI, split as `urllib.parse.urlparse` splits it

  predicate IsAsciiLetter(c: char) { 'a' <= c <= 'z' || 'A' <= c <= 'Z' }

  predicate IsSchemeChar(c: char) {
    IsAsciiLetter(c) || '0' <= c <= '9' || c == '+' || c == '-' || c == '.'
  }

  /** ASCII lower-casing, as `str.lower` does on a scheme. */
  function Lower(s: string): (r: string)
    ensures |r| == |s|
    ensures forall i | 0 <= i < |s| :: r[i] == (if 'A' <= s[i] <= 'Z' then (s[i] as int + 32) as char else s[i])
  {
    if s == [] then []
    else [if 'A' <= s[0] <= 'Z' then (s[0] as int + 32) as char else s[0]] + Lower(s[1..])
  }

  /** The index of the first ':' in `s`, or |s| when there is none. */
  function ColonAt(s: string): (i: nat)
    ensures i <= |s| && (i < |s| ==> s[i] == ':')
    ensures forall j | 0 <= j < i :: s[j] != ':'
  {
    if s == [] || s[0] == ':' then 0 else 1 + ColonAt(s[1..])
  }

  /** The index of the first '/', '?' or '#' in `s`, or |s|. */
  function NetlocEnd(s: string): (i: nat)
    ensures i <= |s|
    ensures forall j | 0 <= j < i :: s[j] != '/' && s[j] != '?' && s[j] != '#'
    ensures i < |s| ==> s[i] == '/' || s[i] == '?' || s[i] == '#'
  {
    if s == [] || s[0] == '/' || s[0] == '?' || s[0] == '#' then 0 else 1 + NetlocEnd(s[1..])
  }

  /** The URL starts with a scheme: a letter, then scheme characters, up to the first ':'. */
  predicate HasScheme(url: string) {
    var i := ColonAt(url);
    0 < i < |url| && IsAsciiLetter(url[0]) && forall j | 0 <= j < i :: IsSchemeChar(url[j])
  }

  /** What follows the scheme and its ':'; the whole URL when there is no scheme. */
  function AfterScheme(url: string): string {
    if HasScheme(url) then url[ColonAt(url) + 1..] else url
  }

  /** Exactly one of the two brackets occurs. */
  predicate Unbalanced(s: string) { ('[' in s) != (']' in s) }

  /** The scheme and the network location of a URL; None where `urlparse` raises ValueError. */
  datatype Url = Url(scheme: string, netloc: string)

  function SplitUrl(url: string): (r: Option<Url>)
    ensures r.Some? ==> (r.value.scheme != [] <==> HasScheme(url))
    ensures r.Some? && HasScheme(url) ==> r.value.scheme == Lower(url[..ColonAt(url)])
    ensures var rest := AfterScheme(url);
            r.Some? && |rest| >= 2 && rest[..2] == "//" ==>
              2 + |r.value.netloc| <= |rest| && rest[2..2 + |r.value.netloc|] == r.value.netloc
              && (2 + |r.value.netloc| == |rest| || rest[2 + |r.value.netloc|] == '/'
                  || rest[2 + |r.value.netloc|] == '?' || rest[2 + |r.value.netloc|] == '#')
    ensures var rest := AfterScheme(url);
            r.Some? && !(|rest| >= 2 && rest[..2] == "//") ==> r.value.netloc == []
    ensures r.Some? ==> forall i | 0 <= i < |r.value.netloc| ::
              r.value.netloc[i] != '/' && r.value.netloc[i] != '?' && r.value.netloc[i] != '#'
    ensures r.Some? ==> !Unbalanced(r.value.netloc)
    ensures var rest := AfterScheme(url);
            r.None? <==> |rest| >= 2 && rest[..2] == "//" && Unbalanced(rest[2..2 + NetlocEnd(rest[2..])])
  {
    var scheme := if HasScheme(url) then Lower(url[..ColonAt(url)]) else "";
    var rest := AfterScheme(url);
    if |rest| >= 2 && rest[..2] == "//" then
      var netloc := rest[2..2 + NetlocEnd(rest[2..])];
      if Unbalanced(netloc) then None else Some(Url(scheme, netloc))
    else Some(Url(scheme, ""))
  }

  /** A valid scheme followed by ':' is split off at that ':'. */
  lemma SchemePrefix(scheme: string, rest: string)
    requires scheme != [] && IsAsciiLetter(scheme[0]) && forall i | 0 <= i < |scheme| :: IsSchemeChar(scheme[i])
    ensures var url := scheme + (":" + rest);
      HasScheme(url) && url[..ColonAt(url)] == scheme && AfterScheme(url) == rest
  {
    var url := scheme + (":" + rest);
    assert url[|scheme|] == ':';
    assert forall j | 0 <= j < |scheme| :: url[j] == scheme[j];
    assert ColonAt(url) == |scheme|;
    assert url[|scheme| + 1..] == rest;
  }

  /** The host part ends where the first '/', '?' or '#' begins. */
  lemma NetlocEndHost(host: string, tail: string)
    requires forall i | 0 <= i < |host| :: host[i] != '/' && host[i] != '?' && host[i] != '#'
    requires tail == [] || tail[0] == '/' || tail[0] == '?' || tail[0] == '#'
    ensures NetlocEnd(host + tail) == |host| && (host + tail)[..|host|] == host
  {
    var t := host + tail;
    assert forall j | 0 <= j < |host| :: t[j] == host[j];
    assert |host| < |t| ==> t[|host|] == tail[0];
  }

  /** After "//", the host part is everything up to the first '/', '?' or '#'. */
  lemma HostPrefix(host: string, tail: string)
    requires forall i | 0 <= i < |host| :: host[i] != '/' && host[i] != '?' && host[i] != '#'
    requires tail == [] || tail[0] == '/' || tail[0] == '?' || tail[0] == '#'
    ensures var rest := "//" + (host + tail);
      |rest| >= 2 && rest[..2] == "//" && rest[2..2 + NetlocEnd(rest[2..])] == host
  {
    var rest := "//" + (host + tail);
    assert rest[2..] == host + tail;
    NetlocEndHost(host, tail);
  }

  /** Once the scheme, the rest and the host part are known, `SplitUrl` is decided by the host's brackets. */
  lemma SplitUrlOf(url: string, scheme: string, rest: string, host: string)
    requires HasScheme(url) && url[..ColonAt(url)] == scheme && AfterScheme(url) == rest
    requires |rest| >= 2 && rest[..2] == "//" && rest[2..2 + NetlocEnd(rest[2..])] == host
    ensures SplitUrl(url) == if Unbalanced(host) then None else Some(Url(Lower(scheme), host))
  {
  }

  /** A scheme, "://", a host and what follows it: the host is split off whole, and rejected only for unbalanced brackets. */
  lemma SplitUrlParts(scheme: string, host: string, tail: string)
    requires scheme != [] && IsAsciiLetter(scheme[0]) && forall i | 0 <= i < |scheme| :: IsSchemeChar(scheme[i])
    requires forall i | 0 <= i < |host| :: host[i] != '/' && host[i] != '?' && host[i] != '#'
    requires tail == [] || tail[0] == '/' || tail[0] == '?' || tail[0] == '#'
    ensures SplitUrl(scheme + (":" + ("//" + (host + tail)))) ==
              if Unbalanced(host) then None else Some(Url(Lower(scheme), host))
  {
    var rest := "//" + (host + tail);
    SchemePrefix(scheme, rest);
    HostPrefix(host, tail);
    SplitUrlOf(scheme + (":" + rest), scheme, rest, host);
  }

  /** A scheme is lower-cased, and the host part stops at the path. */
  lemma SplitUrlExample(url: string)
    requires url == "WSS://h:1/x?y"
    ensures SplitUrl(url) == Some(Url("wss", "h:1"))
  {
    var lower := Lower("WSS");
    assert lower == "wss" by {
      assert lower[0] == 'w' && lower[1] == 's' && lower[2] == 's';
    }
    assert SplitUrl(url) == Some(Url(lower, "h:1")) by {
      assert url == "WSS" + (":" + ("//" + ("h:1" + "/x?y")));
      SplitUrlParts("WSS", "h:1", "/x?y");
    }
  }

  /** An opening bracket without its closing one is a ValueError. */
  lemma SplitUrlUnbalanced(url: string)
    requires url == "ws://[::1/x"
    ensures SplitUrl(url) == None
  {
    assert Unbalanced("[::1") by {
      assert "[::1"[0] == '[';
    }
    assert SplitUrl(url) == if Unbalanced("[::1") then None else Some(Url(Lower("ws"), "[::1")) by {
      assert url == "ws" + (":" + ("//" + ("[::1" + "/x")));
      SplitUrlParts("ws", "[::1", "/x");
    }
  }

  /** Without "//" there is no host, and without ':' no scheme. */
  lemma SplitUrlNoHost(url: string)
    requires url == "host/x"
    ensures SplitUrl(url) == Some(Url("", ""))
  {
    assert forall j | 0 <= j < |url| :: url[j] != ':';
    assert !HasScheme(url);
    assert url[..2] != "//" by { assert url[0] == 'h'; }
  }

  // ---------------------------------------------------------------------------
  // validate_config

  datatype Setting =
    | StakeAmount | ProfitTarget | SessionTarget | BuyWindow | PriceCeiling | PingInterval
    | MaxDailyLoss | MaxConsecutiveLosses

  datatype ConfigError =
    | UriNotConfigured
    | UriBadScheme(scheme: string)
    | UriNoHost
    | UriInvalid
    | BadSetting(setting: Setting, value: PyValue)

  datatype ConfigWarning = EmptyUserAgent | EmptyOrigin | StakeHigh | TargetAmbitious | WindowLong

  predicate UriUnset(uri: PyValue) { !Truthy(uri) || uri == PyStr(Placeholder) }

  /** The errors about the URI: unset, or a scheme other than ws/wss, or no host. */
  function UriErrors(uri: PyValue): (es: seq<ConfigError>)
    ensures UriNotConfigured in es <==> UriUnset(uri)
    ensures es == [] <==> !UriUnset(uri) && uri.PyStr? && SplitUrl(uri.s).Some?
                          && SplitUrl(uri.s).value.scheme in {"ws", "wss"} && SplitUrl(uri.s).value.netloc != []
    ensures forall e | e in es :: !e.BadSetting?
  {
    if UriUnset(uri) then [UriNotConfigured]
    else if !uri.PyStr? then [UriInvalid]   // urlparse of a non-string raises, and the handler reports it
    else
      match SplitUrl(uri.s)
      case None => [UriInvalid]
      case Some(u) =>
        (if u.scheme != "ws" && u.scheme != "wss" then [UriBadScheme(u.scheme)] else [])
        + (if u.netloc == [] then [UriNoHost] else [])
  }

  /** An error unless the value is a number above `floor`. */
  function Check(setting: Setting, v: PyValue, floor: real): (es: seq<ConfigError>)
    ensures forall e | e in es :: e == BadSetting(setting, v)
  {
    if !IsNumber(v) || NumberValue(v) <= floor then [BadSetting(setting, v)] else []
  }

  /** The errors from the trading, timing and optional safety settings, in the order they are checked. */
  function SettingErrors(s: Settings): seq<ConfigError> {
    Check(StakeAmount, s.stakeAmount, 0.0)
    + Check(ProfitTarget, s.profitTarget, 1.0)
    + Check(SessionTarget, s.sessionTarget, 0.0)
    + Check(BuyWindow, s.buyWindow, 0.0)
    + Check(PriceCeiling, s.priceCeiling, 0.0)
    + Check(PingInterval, s.pingInterval, 0.0)
    + (if s.maxDailyLoss.Some? then Check(MaxDailyLoss, s.maxDailyLoss.value, 0.0) else [])
    + (if s.maxConsecutiveLosses.Some? && (!IsInt(s.maxConsecutiveLosses.value)
                                          || NumberValue(s.maxConsecutiveLosses.value) <= 0.0)
       then [BadSetting(MaxConsecutiveLosses, s.maxConsecutiveLosses.value)] else [])
  }

  function Errors(s: Settings): seq<ConfigError> {
    UriErrors(s.websocketUri) + SettingErrors(s)
  }

  /** `>` on a string or None raises TypeError, which nothing in `validate_config` catches. */
  predicate Comparable(v: PyValue) { IsNumber(v) }

  function Warnings(s: Settings): seq<ConfigWarning>
    requires Comparable(s.stakeAmount) && Comparable(s.profitTarget) && Comparable(s.buyWindow)
  {
    (if !Truthy(s.userAgent) then [EmptyUserAgent] else [])
    + (if !Truthy(s.origin) then [EmptyOrigin] else [])
    + (if NumberValue(s.stakeAmount) > 1.0 then [StakeHigh] else [])
    + (if NumberValue(s.profitTarget) > 2.0 then [TargetAmbitious] else [])
    + (if NumberValue(s.buyWindow) > 30.0 then [WindowLong] else [])
  }

  /** What `validate_config` finds: its error and warning lists, and its verdict. */
  datatype Report = Report(errors: seq<ConfigError>, warnings: seq<ConfigWarning>) {
    predicate Passes() { errors == [] }
  }

  /** `validate_config`; None when one of the magnitude warnings raises TypeError. */
  function ValidateConfig(s: Settings): (r: Option<Report>)
    ensures r.None? <==> !(Comparable(s.stakeAmount) && Comparable(s.profitTarget) && Comparable(s.buyWindow))
    ensures r.Some? ==> r.value.errors == Errors(s)
  {
    if Comparable(s.stakeAmount) && Comparable(s.profitTarget) && Comparable(s.buyWindow)
    then Some(Report(Errors(s), Warnings(s)))
    else None
  }

  lemma InCheck(setting: Setting, v: PyValue, floor: real, other: Setting, w: PyValue)
    ensures BadSetting(other, w) in Check(setting, v, floor) <==>
              other == setting && w == v && (!IsNumber(v) || NumberValue(v) <= floor)
  {
  }

  /** The value a numeric setting holds, and the bound it must exceed. */
  function Field(s: Settings, st: Setting): PyValue
    requires st != MaxDailyLoss && st != MaxConsecutiveLosses
  {
    match st
    case StakeAmount => s.stakeAmount
    case ProfitTarget => s.profitTarget
    case SessionTarget => s.sessionTarget
    case BuyWindow => s.buyWindow
    case PriceCeiling => s.priceCeiling
    case PingInterval => s.pingInterval
  }

  function Floor(st: Setting): real { if st == ProfitTarget then 1.0 else 0.0 }

  /** Each of the six required numeric settings is an error exactly when it is not a number above its floor. */
  lemma SettingRule(s: Settings, st: Setting)
    requires st != MaxDailyLoss && st != MaxConsecutiveLosses
    ensures BadSetting(st, Field(s, st)) in Errors(s) <==> !IsNumber(Field(s, st)) || NumberValue(Field(s, st)) <= Floor(st)
  {
    var e := BadSetting(st, Field(s, st));
    assert e !in UriErrors(s.websocketUri);
    InCheck(StakeAmount, s.stakeAmount, 0.0, st, Field(s, st));
    InCheck(ProfitTarget, s.profitTarget, 1.0, st, Field(s, st));
    InCheck(SessionTarget, s.sessionTarget, 0.0, st, Field(s, st));
    InCheck(BuyWindow, s.buyWindow, 0.0, st, Field(s, st));
    InCheck(PriceCeiling, s.priceCeiling, 0.0, st, Field(s, st));
    InCheck(PingInterval, s.pingInterval, 0.0, st, Field(s, st));
  }

  /**
   * The optional safety settings: absent, they raise nothing; present,
   * MAX_DAILY_LOSS must be a number above 0 and MAX_CONSECUTIVE_LOSSES an
   * integer (a bool is one) above 0.
   */
  lemma OptionalSettingRules(s: Settings, v: PyValue)
    ensures BadSetting(MaxDailyLoss, v) in Errors(s) <==>
              s.maxDailyLoss == Some(v) && (!IsNumber(v) || NumberValue(v) <= 0.0)
    ensures BadSetting(MaxConsecutiveLosses, v) in Errors(s) <==>
              s.maxConsecutiveLosses == Some(v) && (!IsInt(v) || NumberValue(v) <= 0.0)
  {
    assert BadSetting(MaxDailyLoss, v) !in UriErrors(s.websocketUri);
    assert BadSetting(MaxConsecutiveLosses, v) !in UriErrors(s.websocketUri);
    InCheck(StakeAmount, s.stakeAmount, 0.0, MaxDailyLoss, v);
    InCheck(ProfitTarget, s.profitTarget, 1.0, MaxDailyLoss, v);
    InCheck(SessionTarget, s.sessionTarget, 0.0, MaxDailyLoss, v);
    InCheck(BuyWindow, s.buyWindow, 0.0, MaxDailyLoss, v);
    InCheck(PriceCeiling, s.priceCeiling, 0.0, MaxDailyLoss, v);
    InCheck(PingInterval, s.pingInterval, 0.0, MaxDailyLoss, v);
    InCheck(StakeAmount, s.stakeAmount, 0.0, MaxConsecutiveLosses, v);
    InCheck(ProfitTarget, s.profitTarget, 1.0, MaxConsecutiveLosses, v);
    InCheck(SessionTarget, s.sessionTarget, 0.0, MaxConsecutiveLosses, v);
    InCheck(BuyWindow, s.buyWindow, 0.0, MaxConsecutiveLosses, v);
    InCheck(PriceCeiling, s.priceCeiling, 0.0, MaxConsecutiveLosses, v);
    InCheck(PingInterval, s.pingInterval, 0.0, MaxConsecutiveLosses, v);
    if s.maxDailyLoss.Some? {
      InCheck(MaxDailyLoss, s.maxDailyLoss.value, 0.0, MaxDailyLoss, v);
      InCheck(MaxDailyLoss, s.maxDailyLoss.value, 0.0, MaxConsecutiveLosses, v);
    }
  }

  predicate Required(st: Setting) { st != MaxDailyLoss && st != MaxConsecutiveLosses }

  /** A URI `validate_config` accepts: set, a string, and split into a ws/wss scheme and a host. */
  predicate GoodUri(uri: PyValue) {
    !UriUnset(uri) && uri.PyStr? && SplitUrl(uri.s).Some?
    && SplitUrl(uri.s).value.scheme in {"ws", "wss"} && SplitUrl(uri.s).value.netloc != []
  }

  /** The settings `validate_config` accepts, stated setting by setting. */
  predicate Acceptable(s: Settings) {
    && GoodUri(s.websocketUri)
    && (forall st: Setting | Required(st) :: IsNumber(Field(s, st)) && NumberValue(Field(s, st)) > Floor(st))
    && (s.maxDailyLoss.Some? ==> IsNumber(s.maxDailyLoss.value) && NumberValue(s.maxDailyLoss.value) > 0.0)
    && (s.maxConsecutiveLosses.Some? ==>
          IsInt(s.maxConsecutiveLosses.value) && NumberValue(s.maxConsecutiveLosses.value) > 0.0)
  }

  /**
   * `validate_config` returns True exactly for acceptable settings, and it
   * returns at all exactly when the three magnitude checks can compare.
   */
  lemma ValidateConfigVerdict(s: Settings)
    ensures ValidateConfig(s).Some? <==> IsNumber(s.stakeAmount) && IsNumber(s.profitTarget) && IsNumber(s.buyWindow)
    ensures ValidateConfig(s).Some? ==> (ValidateConfig(s).value.Passes() <==> Acceptable(s))
  {
    if Acceptable(s) {
      assert Required(StakeAmount) && Required(ProfitTarget) && Required(SessionTarget);
      assert Required(BuyWindow) && Required(PriceCeiling) && Required(PingInterval);
      assert Errors(s) == [];
    } else if Errors(s) == [] {
      forall st: Setting | Required(st)
        ensures IsNumber(Field(s, st)) && NumberValue(Field(s, st)) > Floor(st)
      {
        SettingRule(s, st);
      }
      assert false;
    }
  }

  /** The user agent and the origin only ever give warnings: they never change the errors or the verdict. */
  lemma WarningsDoNotFail(s: Settings, userAgent: PyValue, origin: PyValue)
    requires ValidateConfig(s).Some?
    ensures ValidateConfig(s.(userAgent := userAgent, origin := origin)).Some?
    ensures ValidateConfig(s.(userAgent := userAgent, origin := origin)).value.Passes() == ValidateConfig(s).value.Passes()
    ensures !Truthy(userAgent) ==> EmptyUserAgent in ValidateConfig(s.(userAgent := userAgent, origin := origin)).value.warnings
  {
    var t := s.(userAgent := userAgent, origin := origin);
    assert Errors(t) == Errors(s);
  }

  /** The shipped config.py: only the placeholder URI is wrong, so `validate_config` returns False. */
  lemma ShippedVerdict()
    ensures ValidateConfig(Shipped) == Some(Report([UriNotConfigured], []))
  {
    assert UriErrors(Shipped.websocketUri) == [UriNotConfigured];
    assert SettingErrors(Shipped) == [];
    assert Truthy(Shipped.userAgent) && Truthy(Shipped.origin);
    assert NumberValue(Shipped.stakeAmount) == 0.01 && NumberValue(Shipped.profitTarget) == 1.03;
    assert NumberValue(Shipped.buyWindow) == 5.0;
    assert Warnings(Shipped) == [];
    assert Errors(Shipped) == [UriNotConfigured] + [];
    assert ValidateConfig(Shipped).Some?;
    assert ValidateConfig(Shipped).value.errors == [UriNotConfigured];
    assert ValidateConfig(Shipped).value.warnings == [];
  }

  // ---------------------------------------------------------------------------
  // validate_event_names

  datatype EventWarning = EmptyEvent(name: string) | NotAString(name: string, value: PyValue)

  /** The warning for one configured event name: falsy first, then not a string. */
  function EventCheck(name: string, value: PyValue): Option<EventWarning> {
    if !Truthy(value) then Some(EmptyEvent(name))
    else if !value.PyStr? then Some(NotAString(name, value))
    else None
  }

  /** The loop over the (name, value) pairs, in order. */
  function CheckEvents(events: seq<(string, PyValue)>): (ws: seq<EventWarning>)
    ensures |ws| <= |events|
    ensures ws == [] <==> forall i | 0 <= i < |events| :: events[i].1.PyStr? && events[i].1.s != []
    ensures forall i | 0 <= i < |events| :: EventCheck(events[i].0, events[i].1).Some? ==>
              EventCheck(events[i].0, events[i].1).value in ws
    ensures forall w | w in ws :: exists i | 0 <= i < |events| :: EventCheck(events[i].0, events[i].1) == Some(w)
  {
    if events == [] then []
    else
      var rest := CheckEvents(events[1..]);
      assert forall i | 1 <= i < |events| :: events[i] == events[1..][i - 1];
      match EventCheck(events[0].0, events[0].1)
      case None => rest
      case Some(w) => [w] + rest
  }

  function EventSettings(s: Settings): seq<(string, PyValue)> {
    [("SOCKETIO_EVENT_PLACE_BET", s.placeBet),
     ("SOCKETIO_EVENT_SELL_BET", s.sellBet),
     ("SOCKETIO_EVENT_GAME_STATE_UPDATE", s.gameStateUpdate),
     ("SOCKETIO_EVENT_BET_PLACED", s.betPlaced),
     ("SOCKETIO_EVENT_BET_SOLD", s.betSold),
     ("SOCKETIO_EVENT_BET_LOST", s.betLost)]
  }

  /** A usable event name: a non-empty string. */
  predicate IsEventName(v: PyValue) { v.PyStr? && v.s != [] }

  /** `validate_event_names`: at most one warning per event, none when every name is a non-empty string. */
  function ValidateEventNames(s: Settings): (ws: seq<EventWarning>)
    ensures |ws| <= 6
    ensures ws == [] <==> IsEventName(s.placeBet) && IsEventName(s.sellBet) && IsEventName(s.gameStateUpdate)
                          && IsEventName(s.betPlaced) && IsEventName(s.betSold) && IsEventName(s.betLost)
  {
    var events := EventSettings(s);
    assert events[0].1 == s.placeBet && events[1].1 == s.sellBet && events[2].1 == s.gameStateUpdate;
    assert events[3].1 == s.betPlaced && events[4].1 == s.betSold && events[5].1 == s.betLost;
    CheckEvents(events)
  }

  lemma ShippedEventNames()
    ensures ValidateEventNames(Shipped) == []
  {
    assert IsEventName(Shipped.placeBet) && IsEventName(Shipped.sellBet) && IsEventName(Shipped.gameStateUpdate);
    assert IsEventName(Shipped.betPlaced) && IsEventName(Shipped.betSold) && IsEventName(Shipped.betLost);
  }

  // ---------------------------------------------------------------------------
  // get_config_summary

  datatype ConfigSummary = ConfigSummary(
    uriConfigured: bool,
    stakeAmount: PyValue,
    profitTarget: PyValue,
    sessionTarget: PyValue,
    buyWindow: PyValue,
    priceCeiling: PyValue,
    pingInterval: PyValue,
    logLevel: PyValue,
    dryRun: PyValue,
    maxDailyLoss: PyValue,
    maxConsecutiveLosses: PyValue)

  /** `get_config_summary`; a missing optional setting reads as its `getattr` default. */
  function GetConfigSummary(s: Settings): (r: ConfigSummary)
    ensures r.uriConfigured <==> !UriUnset(s.websocketUri)
    ensures r.dryRun == s.dryRun.GetOr(PyBool(false))
    ensures s.maxDailyLoss.None? ==> r.maxDailyLoss == PyNone
    ensures s.maxConsecutiveLosses.None? ==> r.maxConsecutiveLosses == PyNone
  {
    ConfigSummary(
      Truthy(s.websocketUri) && s.websocketUri != PyStr(Placeholder),
      s.stakeAmount, s.profitTarget, s.sessionTarget, s.buyWindow, s.priceCeiling, s.pingInterval,
      s.logLevel,
      s.dryRun.GetOr(PyBool(false)),
      s.maxDailyLoss.GetOr(PyNone),
      s.maxConsecutiveLosses.GetOr(PyNone))
  }

  /** The summary calls the URI configured exactly when `validate_config` has no "not configured" error. */
  lemma SummaryAgreesWithValidation(s: Settings)
    ensures GetConfigSummary(s).uriConfigured <==> UriNotConfigured !in Errors(s)
  {
    assert forall e | e in SettingErrors(s) :: e.BadSetting?;
  }
}

=== FILE: wrappers.dfy ===
/** Python's `None`-or-value, as an optional value. */
module Wrappers {

  datatype Option<+T> = None | Some(value: T) {
    function GetOr(default: T): T {
      match this
      case Some(v) => v
      case None => default
    }
  }
}
